=== FILE: README.md ===
# protoc-gen-twirp_typescript generator core, modelled in Dafny

`protoc-gen-twirp_typescript` is a protoc plugin. For one `.proto` file it
emits a TypeScript client for Twirp services. The model covers the part of
`generator/client.go` that computes what the template needs:

- **Type mapping.** `types`, `protoToTSType`, `isRepeated`, `mapType`,
  `removePkg`, `camelCase` and `newField` turn each protobuf field into a
  model field. A model field has a TypeScript type, a JSON wire type,
  camel-cased member names and a map annotation.
- **Schema walker.** `addMessageType` registers one model per message, in
  pre-order. A nested message's name is the enclosing names run together,
  and a map entry gets map details. `APIContext.AddModel` keeps both the
  list of models and the name lookup.
- **Service builder.** The loop in `CreateClientAPI` builds the method
  descriptions of every service.
- **Marshalling flags.** Seeding sets the flags from method signatures.
  Then the built-in `Date` model is added and `ApplyMarshalFlags` /
  `enableMarshal` / `enableUnmarshal` propagate the flags along field
  references.
- **Expression builders.** `stringify` and `parse` produce the per-field
  conversion expressions that the template splices into the generated
  `…ToJSON` and `JSONTo…` functions.

Modules, in dependency order:

- `Wrappers`: `Option` and `Result`.
- `Text`: the Go `strings` functions the code uses, with their Go edge
  cases. `Trim` cuts from both ends, `Split` of `""` is `[""]`,
  `TrimPrefix` only trims when the prefix is there, and case mapping is
  ASCII only.
- `Descriptor`: the parts of the protobuf descriptors the generator reads.
- `Models`: the generator's records, the `Registry` (models plus name
  lookup), and the ways generation stops (`GenError`).
- `TypeMapper`, `Walker`, `Propagation`, `ServiceBuilder`, `Expressions`:
  one module per stage above.
- `Generator`: flag seeding and `CreateClientAPI` up to the template.

The Go code shares `*Model` pointers between `ctx.Models` and
`ctx.modelLookup`. The model mirrors this with a lookup from a name to the
index of the latest model of that name. A flag set through the lookup lands
on exactly the model Go would change.

Each way the Go code stops generation becomes a `GenError` result:

- a `log.Fatalf`;
- a nil pointer dereference (an unknown type at line 193; a map entry
  without a `key` or `value` field at line 351);
- a `[0:1]` slice of an empty string in the service loop (lines 269 and
  271).

The one exception is the `[0:1]` slice at line 470, inside `camelCase`.
The model builds member names with the corrected camel-casing (see
"Findings"), so a field such as `page_` builds where the source panics.
The source's camel-casing is modelled next to it, as
`TypeMapper.CamelCaseAsWritten`.

Two points where the code does something a reader might not expect:

- **Duplicate model names.** `AddModel` (lines 172-175) neither rejects
  nor ignores a duplicate name. The later model takes over the lookup
  entry, and both stay in the list of models (`Models.AddModel`).
- **Timestamp exemption.** The comment at lines 182, 211 and 233 says
  well-known Timestamps are skipped, but the test below it is
  `f.Type == "Date"`. A *repeated* Timestamp field has type `Date[]`, so
  it does propagate and flags the primitive `Date` model. The template
  skips primitive models, so this changes nothing in the output.
  `Propagation.Propagates` keeps the code's test. Seeding never flags
  `Date`, because `Date` is added after seeding.

Also:

- **Other scalar types.** Every scalar type other than the five numeric
  ones, `string` and `bool` maps to `string`. This includes `float`,
  `uint32`, `bytes` and enums.

## Model

| member | source | states |
|---|---|---|
| TypeMapper.RemovePkg | generator/client.go:459-461 | The result has no dots. When the name starts with `.pkg.`, that qualifier is removed first. Any other name only loses its dots. |
| TypeMapper.Types | generator/client.go:391-427 | The five numeric kinds give `number`/`number`, string gives `string`/`string` and bool gives `boolean`/`boolean`. A Timestamp message gives `Date`/`string`. Any other message gives the package-stripped name and that name plus `JSON`. Every other kind gives `string`/`string`. A non-message's two halves are equal, and the TypeScript type has no dot. |
| TypeMapper.ProtoToTSType | generator/client.go:380-389 | No contract beyond its two cases; `TypeMapper.ProtoToTSTypeArrays` states what it computes. |
| TypeMapper.ProtoToTSTypeArrays | generator/client.go:380-389 | For a bracket-free element type, the TypeScript half ends in `[]` exactly when the field is repeated, and so does the JSON half. Trimming the brackets from either half gives back the pair `types` returns. |
| TypeMapper.IsRepeated | generator/client.go:429-431 | No contract of its own; it is the label test, and `TypeMapper.ProtoToTSTypeArrays` and `TypeMapper.NewFieldArrayTypes` state what it decides. |
| TypeMapper.CamelCaseMatchesScan | generator/client.go:463-475 | Split-lower-capitalize-join equals a one-pass scan. The scan drops underscores, upper-cases the letter after an underscore and lower-cases the rest. The result has no underscore and the field name's letters up to case. |
| TypeMapper.CamelCaseTrailingUnderscore | generator/client.go:466-471 | The source's camel-casing fails on `page_` (an empty part after the first). The corrected one gives `page`. |
| TypeMapper.CamelCaseAsWrittenAgrees | generator/client.go:463-475 | Wherever the source's camel-casing does not fail, it equals the corrected one. |
| TypeMapper.LastSegment | generator/client.go:439-440 | The simple name is the text after the last dot: it has no dot, it is the whole name when there is no dot, and otherwise the name ends in a dot followed by it. |
| TypeMapper.FindMapEntry | generator/client.go:441-442 | Finds the first nested message with that name that is a map entry. It returns nothing exactly when there is none. |
| TypeMapper.LastNamed | generator/client.go:444-451 | Finds the last field with the given name, because later matches overwrite earlier ones. It returns nothing exactly when no field has the name. |
| TypeMapper.EntryType | generator/client.go:444-451 | No contract of its own; it is the TypeScript half of `types` of the last entry field with that name, or empty when there is none. `TypeMapper.LastNamed` states which field the overwriting loop keeps. |
| TypeMapper.MapType | generator/client.go:433-457 | Present exactly when the type name is non-empty and a nested map entry has its simple name. It is then `Map<K,V>`, where K and V are the TypeScript types of the entry's `key` and `value` fields (empty when a field is missing). |
| TypeMapper.NewFieldNames | generator/client.go:359-376 | The wire name is the field name. The member name has no underscores and equals the field name without underscores, up to case. |
| TypeMapper.NewFieldArrayTypes | generator/client.go:371-373 | A field is repeated exactly when its TypeScript type ends in `[]`, and exactly when its JSON type does. Trimming the brackets gives back the element type. |
| TypeMapper.JsonTypeNotArray | generator/client.go:391-427 | An element JSON type never ends in `[]`. |
| TypeMapper.NewFieldJsonMirrors | generator/client.go:359-376 | A scalar's JSON type equals its TypeScript type. A message's JSON type is the TypeScript element type plus `JSON`. A Timestamp is `Date` in TypeScript and `string` on the wire, with `[]` on both when repeated. |
| Models.AddModel | generator/client.go:172-175 | The model is appended and the earlier list is unchanged. The name now looks up the new model, and every other lookup entry is unchanged. The registry stays well formed: each lookup entry names its model, and each model's name resolves to it or to a later model. |
| Walker.BuildModel | generator/client.go:333-352 | The name is the prefix without dots plus the message name. The fields are `newField` of each field, in order, and the model starts unflagged and non-primitive. It has map details exactly for a map entry: the name with `Entry` trimmed, and the fields built from the last field named `key` and the last named `value` (no later field has that name). A map entry lacking `key` (checked first) or `value` fails, with an error naming the model and the missing field. Member names use the corrected camel-casing (see "Left out"). |
| Walker.PreorderAll | generator/client.go:333-357 | No model registered by the walker is primitive or flagged. |
| Walker.AddMessageType | generator/client.go:333-357 | With the corrected camel-casing, succeeds exactly when every map entry in the tree has `key` and `value`. Otherwise its error is that of the first incomplete map entry in registration order. It then appends one model per message of the tree: parent first, then its nested messages in order. The earlier models are unchanged and the registry stays well formed. |
| Walker.AddMessages | generator/client.go:256-258 | The same, for the top-level messages of a file in order: on failure, the error is that of the first incomplete map entry of the first tree that has one, every earlier tree being complete. |
| Walker.FlattenedName | generator/client.go:335-355 | A message nested inside the path of messages `p1 … pn` is registered as `p1…pn` followed by its own name. |
| Walker.TypeNameMatchesRegisteredName | generator/client.go:335-355 | The fully qualified type name `.pkg.P1.….Name` of a nested message, after `removePkg`, equals the name the walker registers it under. So a field referring to it resolves in the lookup. |
| Walker.QualifiedLastSegment | generator/client.go:439-440 | For the qualified name protoc writes for a nested message, the simple name `mapType` takes is the message's own name. |
| Walker.MapFieldFindsEntry | generator/client.go:433-443 | A field whose type is the qualified name of a map entry nested in its message gets a `Map<K,V>` type. |
| Walker.ThreeLevelNames | generator/client.go:333-357 | Three nested messages `a { b { c } }` register as `a`, `ab`, `abc`, in that order. |
| Propagation.FirstDangling | generator/client.go:219-223 | Finds the first field that should propagate but whose base type is not registered. It returns nothing exactly when every propagating field resolves. |
| Propagation.Successors | generator/client.go:182-190 | A model refers to exactly the registered models that the base types (brackets trimmed) of its propagating fields look up; non-message and `Date` fields refer to nothing. |
| Propagation.Explore | generator/client.go:207-249 | On success, the result is the least set that contains the seeds and is closed under field references: exactly the models reachable from the seeds. None of them has an unresolved reference. On failure, every closed superset of the seeds contains a model with an unresolved reference, and the error names the unregistered base type and the field of a propagating field of one such model, as `log.Fatalf` does. |
| Propagation.Propagate | generator/client.go:207-249 | Only the one flag changes, and flags only grow. The flagged set becomes the reachable closure of the models flagged before, and none of its models has an unresolved reference. It fails exactly when every closed set containing the flagged models contains an unresolved reference. The error then names the unregistered base type and the field of a model the flagged models reach. |
| Propagation.ApplyMarshalFlags | generator/client.go:177-205 | Both flags end as the reachable closures of their initial sets, and no flagged model has an unresolved reference. Names, fields, lookup, primitiveness and map details are unchanged. It fails exactly when one of the two closures must reach an unresolved reference. The error comes from the `canMarshal` closure when that one fails, and otherwise from the `canUnmarshal` closure, naming the base type and field as `log.Fatalf` does. |
| Propagation.EnableAsWritten | generator/client.go:207-227 | The source's recursion, run with a step budget. When it finishes, the started model carries the flag, no flag was cleared, and every model its propagating fields refer to is registered and carries the flag. |
| Propagation.EnableFieldsAsWritten | generator/client.go:211-226 | The field loop of that recursion. When it finishes, no flag was cleared, and every propagating field's base type is registered and its model carries the flag. |
| Propagation.EnableFatalSound | generator/client.go:219-223 | When the recursion stops with the fatal error, the error names the unregistered base type and the field of some propagating field of a model reachable from the starting model. |
| Propagation.FieldsFatalSound | generator/client.go:211-226 | The same for the field loop: the failing field is in the list itself or in a model reachable from one the list refers to. |
| Propagation.FirstMissingIsFatal | generator/client.go:211-224 | When the first propagating field of the starting model has an unregistered base type, the recursion stops at once with the fatal error for that type and field. |
| Propagation.SettledFinishes | generator/client.go:207-249 | When every reference path from a model resolves and reaches a model without propagating fields within `n` steps, the recursion returns, given a depth of at least `n`. |
| Propagation.SelfReferenceNeverSettles | generator/client.go:207-227 | A model with a propagating field of its own type settles within no bound, so `Propagation.SettledFinishes` and `Propagation.SelfReferenceDiverges` cover disjoint schemas. |
| Propagation.SkipInert | generator/client.go:211-215 | Fields that do not propagate (non-messages and `Date`) are skipped: the loop over the fields from the first propagating one on gives the same outcome. |
| Propagation.SelfReferenceDiverges | generator/client.go:207-227 | For a model whose first propagating field has the model's own type, the source's recursion runs out of any budget, however large: it never returns (the Go runtime ends it with a stack-overflow fatal error). Non-message and `Date` fields may come before that field. |
| ServiceBuilder.BuildMethod | generator/client.go:267-279 | Fails exactly when the method name is empty, or the package-stripped input type is empty. On success, the path is the method name. Input and output types are package-stripped. The method name and the argument name lower-case only the first character. |
| ServiceBuilder.MethodNameMatchesPath | generator/client.go:268-269 | The method name and the path have the same length, agree after the first character, and are equal once lower-cased. |
| ServiceBuilder.BuildMethods | generator/client.go:267-282 | Succeeds exactly when every method builds. It then keeps their order and count. On failure, the error is that of the first method that fails. |
| ServiceBuilder.BuildService | generator/client.go:261-285 | The service keeps the schema's name and the file's package. It succeeds exactly when its methods build; otherwise its error is that of its first failing method. |
| ServiceBuilder.BuildServices | generator/client.go:261-285 | The services of the file, in order. It succeeds exactly when every service builds; otherwise its error is that of the first failing service. |
| Expressions.RepeatedDateBranchDead | generator/client.go:478-480 | For every field the source builds, the repeated-`Date` test in `stringify` and `parse` is false. |
| Expressions.RepeatedTimestampAsWritten | generator/client.go:477-507 | For `repeated google.protobuf.Timestamp times`, the source emits `m.times.map(DateToJSON)` and `m.times.map(JSONToDate)`. |
| Expressions.RepeatedTimestampCorrected | generator/client.go:477-507 | For the same field, the corrected builders map each element through `toISOString()` and `new Date(n)`. |
| Expressions.CorrectionOnlyTouchesRepeatedDates | generator/client.go:477-519 | On every field other than a repeated timestamp, the corrected builders equal the source's. |
| Expressions.TimestampFieldExpressions | generator/client.go:477-519 | A timestamp field, single or repeated, is converted with the built-in date conversions. Stringify reads it by member name and parse by wire name. |
| Expressions.ScalarFieldExpressions | generator/client.go:477-519 | A scalar field is copied unchanged: `m.<member>` one way, `m.<wire name>` the other. |
| Expressions.MessageFieldExpressions | generator/client.go:477-519 | A non-map message field of type `T` other than `Date` calls `TToJSON` and `JSONToT`, on the value or on each element. These are the functions generated for model `T`. |
| Expressions.MapFieldExpressions | generator/client.go:477-519 | A map field whose entry type is `XEntry` calls `XMapToJSON` and `JSONToXMap`. `X` is the map-details name the walker gives the entry model. |
| Generator.Signatures | generator/client.go:289-301 | The set of type names some method takes (or returns) is exactly the set of names occurring as an input (output) type of some method of some service. |
| Generator.SeedFlags | generator/client.go:289-301 | A model gets `canMarshal` exactly when it had it or its name is some method's input type. It gets `canUnmarshal` likewise for output types. Nothing else changes. |
| Generator.CreateClientAPI | generator/client.go:251-308 | It fails where the walker or the service builder fails, with their error. Once both succeed, it fails exactly when, in the seeded registry, every closed set containing the input-type models (or every one containing the output-type models) holds an unresolved reference. That error names the base type and field of a model reached from the input types when those reach one, and otherwise of a model reached from the output types. A file with no services and complete map entries always succeeds. On success, no flagged model has an unresolved reference; the services are built in file order, and the models are the messages in pre-order followed by the primitive `Date`, each differing only in flags. `canMarshal` is set on exactly the models reachable from those named as some method's input, and `canUnmarshal` likewise from output types. |
| Generator.ServicelessFileNeverDangles | generator/client.go:288-304 | A file without services seeds no flag, so propagation cannot stop it. |
| TypeMapper.NewField | generator/client.go:359-376 | No contract of its own; `TypeMapper.NewFieldNames`, `TypeMapper.NewFieldArrayTypes` and `TypeMapper.NewFieldJsonMirrors` state what it computes. |
| TypeMapper.CamelCase | generator/client.go:463-475 | No contract of its own; `TypeMapper.CamelCaseMatchesScan` and `TypeMapper.CamelCaseAsWrittenAgrees` state what it computes. |
| TypeMapper.CamelCaseAsWritten | generator/client.go:463-475 | No contract of its own; `TypeMapper.CamelCaseAsWrittenAgrees` and `TypeMapper.CamelCaseTrailingUnderscore` state when it fails and what it gives otherwise. |
| Expressions.StringifyAsWritten | generator/client.go:477-497 | No contract of its own; `Expressions.RepeatedTimestampAsWritten` and `Expressions.CorrectionOnlyTouchesRepeatedDates` speak for it. |
| Expressions.ParseAsWritten | generator/client.go:499-519 | No contract of its own; the same lemmas speak for it. |
| Expressions.Stringify | generator/client.go:477-497 | No contract of its own; `Expressions.TimestampFieldExpressions`, `Expressions.ScalarFieldExpressions`, `Expressions.MessageFieldExpressions`, `Expressions.MapFieldExpressions` and `Expressions.RepeatedTimestampCorrected` state its output per kind of field. |
| Expressions.Parse | generator/client.go:499-519 | No contract of its own; the same lemmas state its output. |
| Propagation.Propagates | generator/client.go:182-185 | No contract of its own; it is the source's test, used in the contracts of `Propagation.FirstDangling`, `Propagation.Successors` and `Propagation.SkipInert`. |
| Propagation.BaseType | generator/client.go:187-190 | No contract of its own; it is the source's trimming of `[` and `]`, used in the contracts of `Propagation.FirstDangling` and `Propagation.EnableFieldsAsWritten`. |
| Walker.Preorder | generator/client.go:333-357 | No model it lists is primitive or flagged; `Walker.AddMessageType` states that registration follows it. |

## Left out

- The template and its rendering (`generator/client.go:16-118`,
  `310-324`), the output file name and the plugin response (`326-331`).
  These are text formatting and I/O. The model stops at the context the
  template receives.
- The protobuf descriptor library and the plugin runtime. Descriptors are
  plain records holding only the parts the generator reads. `Options` with
  no `map_entry` is the record's `mapEntry = false`.
- Case mapping is ASCII only. Go's `strings.ToLower`/`ToUpper` map all of
  Unicode, and `[0:1]` takes one byte of a multi-byte first character.
- `log.Fatalf`'s message text and the Go panic values. Each becomes a
  `GenError` naming what failed: the unregistered type and the field, the
  map entry and its missing field, the service of a method without a
  name, or the method whose input type is empty.
- Propagation.Propagate: when several references are unresolved, it may
  report a different one than Go, whose interleaved walk fails at the first
  one it happens to meet. The model states that the error is that of an
  unresolved field of a model the flagged models reach.
- Propagation.Propagate: on a reference cycle reachable from a flagged
  model, such as `message Node { repeated Node children = 1; }`, it
  succeeds with the cycle flagged, while the source's recursion never
  returns (see "Findings"). Its success and its "fails exactly when"
  describe the corrected, visited-set propagation there, not the source.
- Propagation.ApplyMarshalFlags: propagates all `canMarshal` flags and then
  all `canUnmarshal` flags. Go interleaves the two per field. Both reach the
  same two closures, because each flag's propagation reads only that flag.
- Propagation.ApplyMarshalFlags: likewise succeeds on a reference cycle
  reachable from a flagged model, where the source never returns.
- Propagation.EnableAsWritten: the step budget stands in for Go's unbounded
  recursion. The model does not prove that, on an acyclic schema, the
  source's recursion reaches the same closure as `Explore`. It proves that
  flags never shrink, that every model a flagged model refers to is
  flagged too, that a fatal error is justified, that the recursion
  returns on reference graphs of bounded depth, and that a
  self-reference diverges.
- Propagation.SelfReferenceDiverges: covers a self-reference that is the
  model's first propagating field. A self-reference behind another
  message field diverges too unless the earlier field fails first; that
  case is not proved.
- Walker.BuildModel: member names use the corrected camel-casing. A field
  such as `page_` or `a__b` gets a model, where the source panics at
  line 470. The source's panic is stated by
  `TypeMapper.CamelCaseTrailingUnderscore`.
- Walker.AddMessageType: succeeds on such a field too, for the same reason.
- Walker.AddMessages: likewise.
- Generator.CreateClientAPI: likewise, its failure conditions do not
  include the camel-casing panic at line 470.
- Generator.CreateClientAPI: on a reference cycle reachable from a model
  some method takes or returns, it succeeds with the cycle flagged, while
  the source's propagation never returns.
- TypeMapper.NewField: uses the corrected camel-casing, so a field such as
  `page_` gets a model field where the source's `newField` panics at
  line 470. The source's version is `TypeMapper.CamelCaseAsWritten`.
- How the template combines the `stringify`/`parse` expressions into the
  bodies of the generated conversion functions. Only the expressions
  themselves are modelled.

## Findings

| source | as written | input that shows it | evidently intended | confidence | as-written member | corrected member |
|---|---|---|---|---|---|---|
| generator/client.go:477-507 | Inside the repeated branch, `stringify` and `parse` test `f.Type == "Date"`. A repeated field's type always ends in `[]`, so a repeated Timestamp (type `Date[]`) falls through to the message branch. | `repeated google.protobuf.Timestamp times = 1;` gives `m.times.map(DateToJSON)` and `m.times.map(JSONToDate)`. The template renders conversion functions only for non-primitive models (the `if not .Primitive` test of the template at `generator/client.go:21`), and the built-in `Date` model is primitive, so neither function exists. The exception is a schema that declares its own top-level `message Date` and sends or receives it. | Test `Date[]`, giving `m.times.map((n) => n.toISOString())` and `m.times.map((n) => new Date(n))`. | high; not executed | Expressions.RepeatedTimestampAsWritten | Expressions.RepeatedTimestampCorrected |
| generator/client.go:466-471 | Every part after the first is capitalized with `p[0:1]`, which panics on an empty part. | A field named `page_` (or `a__b`). | An empty part contributes nothing, so `page_` becomes `page`. | high; not executed | TypeMapper.CamelCaseTrailingUnderscore | TypeMapper.CamelCaseMatchesScan |
| generator/client.go:207-249 | `enableMarshal`/`enableUnmarshal` set the flag and recurse into every message field without checking whether the target is already flagged. | `message Node { repeated Node children = 1; }` used as a method input. The recursion never returns, and the Go runtime aborts with a stack-overflow fatal error. | Stop at models already flagged (a visited set), reaching the reachable closure. | high; not executed | Propagation.SelfReferenceDiverges | Propagation.Explore |

=== FILE: descriptor.dfy ===
/**
 * The parts of the protocol-buffer descriptors that the generator reads:
 * a file holds messages and services, a message holds fields and nested
 * messages, a service holds methods.
 */
module Descriptor {

  /** Field types, in the order of `FieldDescriptorProto.Type`. */
  datatype FieldType =
    | TypeDouble | TypeFloat | TypeInt64 | TypeUint64 | TypeInt32
    | TypeFixed64 | TypeFixed32 | TypeBool | TypeString | TypeGroup
    | TypeMessage | TypeBytes | TypeUint32 | TypeEnum | TypeSfixed32
    | TypeSfixed64 | TypeSint32 | TypeSint64

  datatype Label = LabelOptional | LabelRequired | LabelRepeated

  /** `typeName` is the fully qualified referenced type (`.pkg.Outer.Inner`), or "" for scalars. */
  datatype FieldDescriptor = FieldDescriptor(name: string, fieldType: FieldType, fieldLabel: Label, typeName: string)

  /** `mapEntry` is the message's `map_entry` option. */
  datatype MessageDescriptor = MessageDescriptor(
    name: string,
    fields: seq<FieldDescriptor>,
    nested: seq<MessageDescriptor>,
    mapEntry: bool)

  datatype MethodDescriptor = MethodDescriptor(name: string, inputType: string, outputType: string)

  datatype ServiceDescriptor = ServiceDescriptor(name: string, methods: seq<MethodDescriptor>)

  datatype FileDescriptor = FileDescriptor(
    pkg: string,
    messages: seq<MessageDescriptor>,
    services: seq<ServiceDescriptor>)
}

=== FILE: expressions.dfy ===
/**
 * The per-field TypeScript expressions the template splices into the
 * generated marshal (`stringify`) and unmarshal (`parse`) functions. Both
 * read from a variable `m`: `stringify` from the TypeScript object by
 * member name, `parse` from the JSON object by wire name.
 */
module Expressions {
  import opened Wrappers
  import opened Text
  import opened Descriptor
  import opened Models
  import opened TypeMapper

  /** `stringify` exactly as the source writes it. */
  function StringifyAsWritten(f: ModelField): string {
    if f.isRepeated && f.tsType == "Date" then "m." + f.name + ".map((n) => n.toISOString())"
    else if f.isRepeated && f.mapType.Some? then TrimSuffix(f.tsType, "Entry[]") + "MapToJSON(m." + f.name + ")"
    else if f.isRepeated && f.isMessage then "m." + f.name + ".map(" + TrimSuffix(f.tsType, "[]") + "ToJSON)"
    else if f.tsType == "Date" then "m." + f.name + ".toISOString()"
    else if f.isMessage then f.tsType + "ToJSON(m." + f.name + ")"
    else "m." + f.name
  }

  /** `parse` exactly as the source writes it. */
  function ParseAsWritten(f: ModelField): string {
    if f.isRepeated && f.tsType == "Date" then "m." + f.jsonName + ".map((n) => new Date(n))"
    else if f.isRepeated && f.mapType.Some? then "JSONTo" + TrimSuffix(f.tsType, "Entry[]") + "Map(m." + f.jsonName + ")"
    else if f.isRepeated && f.isMessage then "m." + f.jsonName + ".map(JSONTo" + TrimSuffix(f.tsType, "[]") + ")"
    else if f.tsType == "Date" then "new Date(m." + f.jsonName + ")"
    else if f.isMessage then "JSONTo" + f.tsType + "(m." + f.jsonName + ")"
    else "m." + f.jsonName
  }

  /**
   * `stringify` with the repeated timestamp case recognised by its actual
   * type `Date[]`; otherwise the source's branches in the source's order.
   */
  function Stringify(f: ModelField): string {
    if f.isRepeated && f.tsType == "Date[]" then "m." + f.name + ".map((n) => n.toISOString())"
    else if f.isRepeated && f.mapType.Some? then TrimSuffix(f.tsType, "Entry[]") + "MapToJSON(m." + f.name + ")"
    else if f.isRepeated && f.isMessage then "m." + f.name + ".map(" + TrimSuffix(f.tsType, "[]") + "ToJSON)"
    else if f.tsType == "Date" then "m." + f.name + ".toISOString()"
    else if f.isMessage then f.tsType + "ToJSON(m." + f.name + ")"
    else "m." + f.name
  }

  /** `parse`, corrected in the same way as `Stringify`. */
  function Parse(f: ModelField): string {
    if f.isRepeated && f.tsType == "Date[]" then "m." + f.jsonName + ".map((n) => new Date(n))"
    else if f.isRepeated && f.mapType.Some? then "JSONTo" + TrimSuffix(f.tsType, "Entry[]") + "Map(m." + f.jsonName + ")"
    else if f.isRepeated && f.isMessage then "m." + f.jsonName + ".map(JSONTo" + TrimSuffix(f.tsType, "[]") + ")"
    else if f.tsType == "Date" then "new Date(m." + f.jsonName + ")"
    else if f.isMessage then "JSONTo" + f.tsType + "(m." + f.jsonName + ")"
    else "m." + f.jsonName
  }

  /**
   * In the source, the repeated-`Date` branch of `stringify` and `parse`
   * can never be taken: a repeated field's type always ends in `[]`.
   */
  lemma RepeatedDateBranchDead(d: FieldDescriptor, parent: MessageDescriptor, pkg: string)
    ensures var f := NewField(d, parent, pkg);
            !(f.isRepeated && f.tsType == "Date")
  {
    var f := NewField(d, parent, pkg);
    if f.isRepeated {
      assert f.tsType[|f.tsType| - 1] == ']';
    }
  }

  /**
   * The correction changes only the repeated timestamp case: on every
   * other field built from a descriptor the two versions agree.
   */
  lemma CorrectionOnlyTouchesRepeatedDates(d: FieldDescriptor, parent: MessageDescriptor, pkg: string)
    ensures var f := NewField(d, parent, pkg);
            !(f.isRepeated && f.tsType == "Date[]") ==>
              StringifyAsWritten(f) == Stringify(f) && ParseAsWritten(f) == Parse(f)
  {
    RepeatedDateBranchDead(d, parent, pkg);
  }

  const TimesField := FieldDescriptor("times", TypeMessage, LabelRepeated, TimestampTypeName)
  const EventMessage := MessageDescriptor("Event", [TimesField], [], false)

  lemma TimesCamelCase()
    ensures CamelCase("times") == "times"
  {
    SplitAbsent("times", '_');
    assert Lower("times") == "times";
  }

  lemma TimesMapType(pkg: string)
    ensures MapType(TimesField, EventMessage, pkg) == None
  {
  }

  lemma TimesFieldShape(pkg: string)
    ensures NewField(TimesField, EventMessage, pkg) == TimesModelField
  {
    TimesCamelCase();
    assert "Date" + "[]" == "Date[]" && "string" + "[]" == "string[]";
    TimesMapType(pkg);
  }

  const TimesModelField := ModelField("times", "Date[]", "times", "string[]", true, true, None)

  /**
   * `repeated google.protobuf.Timestamp times`: the source emits calls of
   * `DateToJSON` and `JSONToDate`, which no model defines.
   */
  lemma RepeatedTimestampAsWritten(pkg: string)
    ensures var f := NewField(TimesField, EventMessage, pkg);
            && f.name == "times" && f.jsonName == "times"
            && StringifyAsWritten(f) == "m." + f.name + ".map(" + "Date" + "ToJSON)"
            && ParseAsWritten(f) == "m." + f.jsonName + ".map(JSONTo" + "Date" + ")"
  {
    TimesFieldShape(pkg);
    assert TrimSuffix("Date[]", "[]") == "Date";
  }

  /** The corrected functions convert each element of the same field as a date. */
  lemma RepeatedTimestampCorrected(pkg: string)
    ensures var f := NewField(TimesField, EventMessage, pkg);
            && f.name == "times" && f.jsonName == "times"
            && Stringify(f) == "m." + f.name + ".map((n) => n.toISOString())"
            && Parse(f) == "m." + f.jsonName + ".map((n) => new Date(n))"
  {
    TimesFieldShape(pkg);
  }

  /** A timestamp field, repeated or not, is converted with the built-in date conversions. */
  lemma TimestampFieldExpressions(d: FieldDescriptor, parent: MessageDescriptor, pkg: string)
    requires d.fieldType == TypeMessage && d.typeName == TimestampTypeName
    ensures var f := NewField(d, parent, pkg);
            && Stringify(f) == (if f.isRepeated then "m." + f.name + ".map((n) => n.toISOString())"
                                else "m." + f.name + ".toISOString()")
            && Parse(f) == (if f.isRepeated then "m." + d.name + ".map((n) => new Date(n))"
                            else "new Date(m." + d.name + ")")
  {
    var f := NewField(d, parent, pkg);
    assert Types(d, pkg) == ("Date", "string");
    if f.isRepeated {
      assert f.tsType == "Date" + "[]";
      assert "Date" + "[]" == "Date[]";
    } else {
      assert f.tsType == "Date";
    }
  }

  /** A scalar field is copied as it is, read by member name one way and by wire name the other. */
  lemma ScalarFieldExpressions(d: FieldDescriptor, parent: MessageDescriptor, pkg: string)
    requires d.fieldType != TypeMessage
    requires MapType(d, parent, pkg).None?
    ensures var f := NewField(d, parent, pkg);
            Stringify(f) == "m." + f.name && Parse(f) == "m." + d.name
  {
    var f := NewField(d, parent, pkg);
    var t := Types(d, pkg).0;
    assert t == "number" || t == "string" || t == "boolean";
    if f.isRepeated {
      assert f.tsType == t + "[]";
      assert f.tsType != "Date[]" by { assert f.tsType[0] != 'D'; }
    }
  }

  /**
   * A message field calls the generated conversion of the model it
   * references, `T + "ToJSON"` and `"JSONTo" + T`, on the value or on each
   * element.
   */
  lemma MessageFieldExpressions(d: FieldDescriptor, parent: MessageDescriptor, pkg: string)
    requires d.fieldType == TypeMessage && d.typeName != TimestampTypeName
    requires MapType(d, parent, pkg).None?
    requires RemovePkg(d.typeName, pkg) != "Date"
    ensures var f := NewField(d, parent, pkg);
            var t := RemovePkg(d.typeName, pkg);
            && Stringify(f) == (if f.isRepeated then "m." + f.name + ".map(" + t + "ToJSON)"
                                else t + "ToJSON(m." + f.name + ")")
            && Parse(f) == (if f.isRepeated then "m." + d.name + ".map(JSONTo" + t + ")"
                            else "JSONTo" + t + "(m." + d.name + ")")
  {
    var f := NewField(d, parent, pkg);
    var t := RemovePkg(d.typeName, pkg);
    if f.isRepeated {
      assert f.tsType == t + "[]";
      TrimSuffixOfAppend(t, "[]");
    }
  }

  lemma TrimEntryArray(t: string)
    requires HasSuffix(t, "Entry")
    ensures TrimSuffix(t + "[]", "Entry[]") == TrimSuffix(t, "Entry")
  {
    var s := t + "[]";
    assert s[|s| - 7..] == t[|t| - 5..] + "[]";
    assert s[..|s| - 7] == t[..|t| - 5];
  }

  /**
   * A map field calls the map helpers of its entry model: with entry type
   * `XEntry`, `XMapToJSON` and `JSONToXMap`, the names the entry model's
   * `MapDetails` (its name with `Entry` trimmed) gives those helpers.
   */
  lemma MapFieldExpressions(d: FieldDescriptor, parent: MessageDescriptor, pkg: string)
    requires d.fieldType == TypeMessage && d.fieldLabel == LabelRepeated && d.typeName != TimestampTypeName
    requires MapType(d, parent, pkg).Some?
    requires HasSuffix(RemovePkg(d.typeName, pkg), "Entry")
    ensures var f := NewField(d, parent, pkg);
            var helper := TrimSuffix(RemovePkg(d.typeName, pkg), "Entry");
            && Stringify(f) == helper + "MapToJSON(m." + f.name + ")"
            && Parse(f) == "JSONTo" + helper + "Map(m." + d.name + ")"
  {
    var f := NewField(d, parent, pkg);
    var t := RemovePkg(d.typeName, pkg);
    assert f.tsType == t + "[]";
    TrimEntryArray(t);
  }
}

=== FILE: generator.dfy ===
/**
 * The generator's top-level pass over one file: register every message,
 * build the services, seed the conversion flags from the service
 * signatures, add the built-in `Date` model and propagate the flags.
 */
module Generator {
  import opened Wrappers
  import opened Descriptor
  import opened Models
  import opened Walker
  import opened ServiceBuilder
  import opened Propagation

  /**
   * The type of a method that crosses the wire in direction `d`: the
   * client marshals the input and unmarshals the output.
   */
  function WireType(m: ServiceMethod, d: Direction): string {
    match d
    case Marshal => m.inputType
    case Unmarshal => m.outputType
  }

  /** Some method of some service sends (`Marshal`) or receives (`Unmarshal`) a value of type `name`. */
  predicate InSignature(name: string, services: seq<Service>, d: Direction) {
    exists k, j :: 0 <= k < |services| && 0 <= j < |services[k].methods| && WireType(services[k].methods[j], d) == name
  }

  lemma InSignatureTail(services: seq<Service>, d: Direction)
    requires |services| > 0
    ensures forall name :: InSignature(name, services, d) <==>
              InSignature(name, services[1..], d) ||
              exists j :: 0 <= j < |services[0].methods| && WireType(services[0].methods[j], d) == name
  {
    forall name | InSignature(name, services[1..], d) ensures InSignature(name, services, d) {
      var k, j :| 0 <= k < |services[1..]| && 0 <= j < |services[1..][k].methods| && WireType(services[1..][k].methods[j], d) == name;
      assert services[k + 1] == services[1..][k];
    }
    forall name | InSignature(name, services, d) && !InSignature(name, services[1..], d)
      ensures exists j :: 0 <= j < |services[0].methods| && WireType(services[0].methods[j], d) == name
    {
      var k, j :| 0 <= k < |services| && 0 <= j < |services[k].methods| && WireType(services[k].methods[j], d) == name;
      assert k == 0;
    }
  }

  /** The type names crossing the wire in direction `d`, gathered service by service. */
  function Signatures(services: seq<Service>, d: Direction): (r: set<string>)
    ensures forall name :: name in r <==> InSignature(name, services, d)
  {
    if |services| == 0 then {}
    else
      var ms := services[0].methods;
      InSignatureTail(services, d);
      Signatures(services[1..], d) + (set j | 0 <= j < |ms| :: WireType(ms[j], d))
  }

  /** One model after seeding: marshalled if some method takes it, unmarshalled if some method returns it. */
  function SeedModel(m: Model, inputs: set<string>, outputs: set<string>): Model {
    m.(canMarshal := m.canMarshal || m.name in inputs,
       canUnmarshal := m.canUnmarshal || m.name in outputs)
  }

  /**
   * The seeding loop: every registered model whose name is the input type
   * of some method gets `canMarshal`, every one whose name is an output
   * type gets `canUnmarshal`; nothing else changes.
   */
  function SeedFlags(reg: Registry, services: seq<Service>): (r: Registry)
    requires WellFormed(reg)
    ensures WellFormed(r) && SameShape(reg, r)
    ensures forall i :: 0 <= i < |reg.models| ==>
              && r.models[i].primitive == reg.models[i].primitive
              && r.models[i].mapDetails == reg.models[i].mapDetails
              && (r.models[i].canMarshal <==> reg.models[i].canMarshal || InSignature(reg.models[i].name, services, Marshal))
              && (r.models[i].canUnmarshal <==> reg.models[i].canUnmarshal || InSignature(reg.models[i].name, services, Unmarshal))
  {
    var inputs := Signatures(services, Marshal);
    var outputs := Signatures(services, Unmarshal);
    Registry(seq(|reg.models|, i requires 0 <= i < |reg.models| => SeedModel(reg.models[i], inputs, outputs)), reg.lookup)
  }

  /** The built-in model standing for `google.protobuf.Timestamp`; the template renders no code for it. */
  const DateModel := Model("Date", true, [], None, false, false)

  /** Two models that differ at most in their conversion flags. */
  predicate SameButFlags(a: Model, b: Model) {
    a.(canMarshal := false, canUnmarshal := false) == b.(canMarshal := false, canUnmarshal := false)
  }

  /** The models a flag is seeded on: the schema's models (not `Date`) named by a method signature. */
  ghost function Seeds(models: seq<Model>, services: seq<Service>, d: Direction): set<nat> {
    set i | 0 <= i < |models| && InSignature(models[i].name, services, d)
  }

  /**
   * The registry the propagation starts from: the schema's models with the
   * signature flags seeded, then `Date`.
   */
  ghost function Seeded(file: FileDescriptor): (r: Registry)
    requires ForestComplete(file.messages) && BuildServices(file.services, file.pkg).Success?
    ensures WellFormed(r) && LookupInRange(r)
  {
    var schema := AddMessages(EmptyRegistry, file.messages, "", file.pkg).value;
    AddModel(SeedFlags(schema, BuildServices(file.services, file.pkg).value), DateModel)
  }

  /**
   * `CreateClientAPI` up to the template: fails where the walker, the
   * service builder or the propagation stops the generator; otherwise the
   * models are the schema's messages in pre-order followed by `Date`, the
   * services are the file's in order, and each flag is set on exactly the
   * models reachable from the models some method takes (for `canMarshal`)
   * or returns (for `canUnmarshal`).
   */
  method CreateClientAPI(file: FileDescriptor) returns (r: Result<APIContext, GenError>)
    ensures !ForestComplete(file.messages) ==> r == Failure(AddMessages(EmptyRegistry, file.messages, "", file.pkg).error)
    ensures ForestComplete(file.messages) && BuildServices(file.services, file.pkg).Failure? ==>
              r == Failure(BuildServices(file.services, file.pkg).error)
    ensures r.Success? ==> ForestComplete(file.messages) && BuildServices(file.services, file.pkg) == Success(r.value.services)
    ensures r.Success? ==>
              var models := PreorderAll(file.messages, "", file.pkg);
              var reg := r.value.registry;
              && WellFormed(reg)
              && |reg.models| == |models| + 1
              && (forall i :: 0 <= i < |models| ==> SameButFlags(reg.models[i], models[i]))
              && SameButFlags(reg.models[|models|], DateModel)
              && IsClosureOf(reg, Seeds(models, r.value.services, Marshal), Flagged(reg, Marshal))
              && IsClosureOf(reg, Seeds(models, r.value.services, Unmarshal), Flagged(reg, Unmarshal))
    ensures ForestComplete(file.messages) && BuildServices(file.services, file.pkg).Success? ==>
              var models := PreorderAll(file.messages, "", file.pkg);
              var services := BuildServices(file.services, file.pkg).value;
              (r.Failure? <==> ReachesDangling(Seeded(file), Seeds(models, services, Marshal))
                               || ReachesDangling(Seeded(file), Seeds(models, services, Unmarshal)))
    ensures ForestComplete(file.messages) && BuildServices(file.services, file.pkg).Success? && r.Failure? ==>
              var models := PreorderAll(file.messages, "", file.pkg);
              var services := BuildServices(file.services, file.pkg).value;
              && (ReachesDangling(Seeded(file), Seeds(models, services, Marshal)) ==>
                    SeedsFailWith(Seeded(file), Seeds(models, services, Marshal), r.error))
              && (!ReachesDangling(Seeded(file), Seeds(models, services, Marshal)) ==>
                    SeedsFailWith(Seeded(file), Seeds(models, services, Unmarshal), r.error))
    ensures ForestComplete(file.messages) && file.services == [] ==> r.Success?
    ensures r.Success? ==>
              var reg := r.value.registry;
              && (forall i :: i in Flagged(reg, Marshal) ==> i < |reg.models| && !Dangling(reg, i))
              && (forall i :: i in Flagged(reg, Unmarshal) ==> i < |reg.models| && !Dangling(reg, i))
  {
    var schema :- AddMessages(EmptyRegistry, file.messages, "", file.pkg);
    var services :- BuildServices(file.services, file.pkg);
    var seeded := SeedFlags(schema, services);
    var withDate := AddModel(seeded, DateModel);
    assert schema.models == PreorderAll(file.messages, "", file.pkg);
    assert withDate == Seeded(file);
    SeededFlags(schema, withDate, services, Marshal);
    SeededFlags(schema, withDate, services, Unmarshal);
    if file.services == [] {
      ServicelessFileNeverDangles(file, Marshal);
      ServicelessFileNeverDangles(file, Unmarshal);
    }
    var flagged :- ApplyMarshalFlags(withDate);
    SameShapeSameGraph(withDate, flagged);
    r := Success(APIContext(flagged, services));
    CreateBookkeeping(schema, withDate, flagged, services);
    CreateClosures(schema, withDate, flagged, services, Marshal);
    CreateClosures(schema, withDate, flagged, services, Unmarshal);
  }

  /**
   * A file without services seeds no flag, so the propagation has nothing
   * to reach and the generator stops only where the walker does.
   */
  lemma ServicelessFileNeverDangles(file: FileDescriptor, d: Direction)
    requires ForestComplete(file.messages) && file.services == []
    ensures !ReachesDangling(Seeded(file), Seeds(PreorderAll(file.messages, "", file.pkg), [], d))
  {
    var reg := Seeded(file);
    assert Seeds(PreorderAll(file.messages, "", file.pkg), [], d) == {};
    assert Closed(reg, {});
  }

  /** Seeding an unflagged schema and appending `Date` flags exactly the seeds. */
  lemma SeededFlags(schema: Registry, withDate: Registry, services: seq<Service>, d: Direction)
    requires WellFormed(schema)
    requires forall i :: 0 <= i < |schema.models| ==> !Flag(schema.models[i], d)
    requires withDate == AddModel(SeedFlags(schema, services), DateModel)
    ensures Flagged(withDate, d) == Seeds(schema.models, services, d)
  {
    var seeded := SeedFlags(schema, services);
    var n := |schema.models|;
    assert withDate.models[n] == DateModel;
    forall i | 0 <= i < n ensures withDate.models[i] == seeded.models[i] {
      assert withDate.models[..n][i] == withDate.models[i];
    }
    forall i: nat ensures i in Flagged(withDate, d) <==> i in Seeds(schema.models, services, d) {
      if i < n {
        assert Flag(withDate.models[i], d) <==> Flag(seeded.models[i], d);
      }
    }
  }

  lemma CreateBookkeeping(schema: Registry, withDate: Registry, flagged: Registry, services: seq<Service>)
    requires WellFormed(schema)
    requires forall i :: 0 <= i < |schema.models| ==> !schema.models[i].canMarshal && !schema.models[i].canUnmarshal
    requires withDate == AddModel(SeedFlags(schema, services), DateModel)
    requires WellFormed(flagged) && SameShape(withDate, flagged)
    requires forall i :: 0 <= i < |withDate.models| ==>
               && flagged.models[i].primitive == withDate.models[i].primitive
               && flagged.models[i].mapDetails == withDate.models[i].mapDetails
    ensures |flagged.models| == |schema.models| + 1
    ensures forall i :: 0 <= i < |schema.models| ==> SameButFlags(flagged.models[i], schema.models[i])
    ensures SameButFlags(flagged.models[|schema.models|], DateModel)
  {
    var seeded := SeedFlags(schema, services);
    var n := |schema.models|;
    assert withDate.models[n] == DateModel;
    forall i | 0 <= i < n ensures SameButFlags(flagged.models[i], schema.models[i]) {
      assert withDate.models[..n][i] == withDate.models[i];
      assert withDate.models[i] == seeded.models[i];
    }
  }

  lemma CreateClosures(schema: Registry, withDate: Registry, flagged: Registry, services: seq<Service>, d: Direction)
    requires WellFormed(schema)
    requires forall i :: 0 <= i < |schema.models| ==> !Flag(schema.models[i], d)
    requires withDate == AddModel(SeedFlags(schema, services), DateModel)
    requires SameShape(withDate, flagged)
    requires IsClosureOf(withDate, Flagged(withDate, d), Flagged(flagged, d))
    ensures LookupInRange(flagged)
    ensures IsClosureOf(flagged, Seeds(schema.models, services, d), Flagged(flagged, d))
  {
    SeededFlags(schema, withDate, services, d);
    SameShapeSameClosure(withDate, flagged, Seeds(schema.models, services, d), Flagged(flagged, d));
  }
}

=== FILE: models.dfy ===
/**
 * The generator's own records (models, fields, services) and the model
 * registry: the ordered model list plus the name lookup of `APIContext`.
 */
module Models {
  import opened Wrappers

  /** One member of a model: TypeScript name and type, JSON name and type. */
  datatype ModelField = ModelField(
    name: string,
    tsType: string,
    jsonName: string,
    jsonType: string,
    isMessage: bool,
    isRepeated: bool,
    mapType: Option<string>)

  /** Present on models that stand for a protobuf map entry. */
  datatype MapDetails = MapDetails(name: string, keyField: ModelField, valueField: ModelField)

  datatype Model = Model(
    name: string,
    primitive: bool,
    fields: seq<ModelField>,
    mapDetails: Option<MapDetails>,
    canMarshal: bool,
    canUnmarshal: bool)

  datatype ServiceMethod = ServiceMethod(
    name: string,
    path: string,
    inputArg: string,
    inputType: string,
    outputType: string)

  datatype Service = Service(name: string, pkg: string, methods: seq<ServiceMethod>)

  /**
   * The conditions under which the generator stops: a field naming a type
   * that is not registered, a map entry without a `key` or `value` field,
   * and slicing the first character of an empty method or input type name.
   */
  datatype GenError =
    | UnknownModel(typeName: string, fieldName: string)
    | MissingMapField(modelName: string, fieldName: string)
    | EmptyMethodName(serviceName: string)
    | EmptyInputType(methodName: string)

  /**
   * `models` in insertion order; `lookup` maps a name to the index of the
   * model registered last under it. Flags set through `lookup` therefore
   * land on the same entry that `models` lists, as with Go's shared pointers.
   */
  datatype Registry = Registry(models: seq<Model>, lookup: map<string, nat>)

  /** The finished registry and the services, as handed to the template. */
  datatype APIContext = APIContext(registry: Registry, services: seq<Service>)

  const EmptyRegistry := Registry([], map[])

  /** Every lookup entry points at a model of that name, and at the last one. */
  ghost predicate WellFormed(reg: Registry) {
    && (forall n :: n in reg.lookup ==> reg.lookup[n] < |reg.models| && reg.models[reg.lookup[n]].name == n)
    && (forall i :: 0 <= i < |reg.models| ==> reg.models[i].name in reg.lookup && i <= reg.lookup[reg.models[i].name])
  }

  /** Appends `m` and points its name at it; an earlier model of that name stays listed but is shadowed. */
  function AddModel(reg: Registry, m: Model): (r: Registry)
    requires WellFormed(reg)
    ensures WellFormed(r)
    ensures |r.models| == |reg.models| + 1 && r.models[..|reg.models|] == reg.models
    ensures m.name in r.lookup && r.models[r.lookup[m.name]] == m
    ensures r.lookup.Keys == reg.lookup.Keys + {m.name}
    ensures forall n :: n in reg.lookup && n != m.name ==> r.lookup[n] == reg.lookup[n]
  {
    Registry(reg.models + [m], reg.lookup[m.name := |reg.models|])
  }
}

=== FILE: propagation.dfy ===
/**
 * Reachability propagation of the `canMarshal` / `canUnmarshal` flags:
 * a model that is marshalled needs every model its message fields refer
 * to marshalled too, and likewise for unmarshalling.
 */
module Propagation {
  import opened Wrappers
  import opened Text
  import opened Models

  datatype Direction = Marshal | Unmarshal

  function Flag(m: Model, d: Direction): bool {
    if d.Marshal? then m.canMarshal else m.canUnmarshal
  }

  function WithFlag(m: Model, d: Direction, b: bool): Model {
    if d.Marshal? then m.(canMarshal := b) else m.(canUnmarshal := b)
  }

  /** Only message fields whose type is not `Date` carry the flags along. */
  predicate Propagates(f: ModelField) {
    f.isMessage && f.tsType != "Date"
  }

  /** The name of the referenced model: the type, with `[` and `]` trimmed when the field is repeated. */
  function BaseType(f: ModelField): string {
    if f.isRepeated then Trim(f.tsType, {'[', ']'}) else f.tsType
  }

  /** Every lookup entry points into the model list. */
  ghost predicate LookupInRange(reg: Registry) {
    forall n :: n in reg.lookup ==> reg.lookup[n] < |reg.models|
  }

  /** The registry indices the propagating fields among `fs` resolve to. */
  function FieldTargets(lookup: map<string, nat>, fs: seq<ModelField>): (r: set<nat>)
    ensures forall t :: t in r ==> t in lookup.Values
    ensures forall t :: t in r <==> ResolvesTo(lookup, fs, t)
  {
    if |fs| == 0 then {}
    else
      var rest := FieldTargets(lookup, fs[1..]);
      forall t ensures ResolvesTo(lookup, fs[1..], t) ==> ResolvesTo(lookup, fs, t) {
        if ResolvesTo(lookup, fs[1..], t) {
          var k :| 0 <= k < |fs[1..]| && Propagates(fs[1..][k]) && BaseType(fs[1..][k]) in lookup && lookup[BaseType(fs[1..][k])] == t;
          assert fs[k + 1] == fs[1..][k];
        }
      }
      forall t | ResolvesTo(lookup, fs, t) && !ResolvesTo(lookup, fs[1..], t)
        ensures Propagates(fs[0]) && BaseType(fs[0]) in lookup && lookup[BaseType(fs[0])] == t
      {
        var k :| 0 <= k < |fs| && Propagates(fs[k]) && BaseType(fs[k]) in lookup && lookup[BaseType(fs[k])] == t;
        assert k == 0;
      }
      (if Propagates(fs[0]) && BaseType(fs[0]) in lookup then {lookup[BaseType(fs[0])]} else {}) + rest
  }

  /** Some propagating field among `fs` has a registered base type that looks up `t`. */
  ghost predicate ResolvesTo(lookup: map<string, nat>, fs: seq<ModelField>, t: nat) {
    exists k :: 0 <= k < |fs| && Propagates(fs[k]) && BaseType(fs[k]) in lookup && lookup[BaseType(fs[k])] == t
  }

  /** The models that model `i` refers to. */
  function Successors(reg: Registry, i: nat): (r: set<nat>)
    requires LookupInRange(reg) && i < |reg.models|
    ensures forall t :: t in r ==> t < |reg.models|
    ensures forall t :: t in r <==> ResolvesTo(reg.lookup, reg.models[i].fields, t)
  {
    FieldTargets(reg.lookup, reg.models[i].fields)
  }

  /** Model `i` has a propagating field whose type is not registered. */
  predicate Dangling(reg: Registry, i: nat)
    requires i < |reg.models|
  {
    exists k :: 0 <= k < |reg.models[i].fields| && Propagates(reg.models[i].fields[k])
                && BaseType(reg.models[i].fields[k]) !in reg.lookup
  }

  /** The first propagating field (in declaration order) whose type is not registered. */
  function FirstDangling(reg: Registry, fs: seq<ModelField>): (r: Option<ModelField>)
    ensures r.None? <==> forall k :: 0 <= k < |fs| && Propagates(fs[k]) ==> BaseType(fs[k]) in reg.lookup
    ensures r.Some? ==> exists k :: 0 <= k < |fs| && fs[k] == r.value && Propagates(r.value) && BaseType(r.value) !in reg.lookup
                                  && forall j :: 0 <= j < k && Propagates(fs[j]) ==> BaseType(fs[j]) in reg.lookup
  {
    if |fs| == 0 then None
    else if Propagates(fs[0]) && BaseType(fs[0]) !in reg.lookup then Some(fs[0])
    else
      var r := FirstDangling(reg, fs[1..]);
      if r.Some? then
        ghost var k :| 0 <= k < |fs[1..]| && fs[1..][k] == r.value && Propagates(r.value) && BaseType(r.value) !in reg.lookup
                     && forall j :: 0 <= j < k && Propagates(fs[1..][j]) ==> BaseType(fs[1..][j]) in reg.lookup;
        assert fs[k + 1] == r.value;
        r
      else r
  }

  /** `S` holds registry indices only and every model it holds has its references in `S` too. */
  ghost predicate Closed(reg: Registry, s: set<nat>)
    requires LookupInRange(reg)
  {
    forall i :: i in s ==> i < |reg.models| && Successors(reg, i) <= s
  }

  /** `r` is the least closed set containing `seeds`: the models reachable from the seeds. */
  ghost predicate IsClosureOf(reg: Registry, seeds: set<nat>, r: set<nat>)
    requires LookupInRange(reg)
  {
    && seeds <= r
    && Closed(reg, r)
    && forall s :: Closed(reg, s) && seeds <= s ==> r <= s
  }

  /** Every closed set containing `seeds` holds a model with an unresolved reference. */
  ghost predicate ReachesDangling(reg: Registry, seeds: set<nat>)
    requires LookupInRange(reg)
  {
    forall s :: Closed(reg, s) && seeds <= s ==> exists i :: i in s && i < |reg.models| && Dangling(reg, i)
  }

  /** The numbers below `n`. */
  function Below(n: nat): (r: set<nat>)
    ensures forall i: nat :: i in r <==> i < n
  {
    if n == 0 then {} else Below(n - 1) + {n - 1}
  }

  /** What the worklist loop keeps: everything found so far lies in every closed superset of the seeds. */
  ghost predicate ExploreInv(reg: Registry, seeds: set<nat>, visited: set<nat>, work: set<nat>)
    requires LookupInRange(reg)
  {
    && (forall i :: i in work ==> i < |reg.models|)
    && visited <= Below(|reg.models|)
    && work !! visited
    && seeds <= visited + work
    && (forall v :: v in visited ==> Successors(reg, v) <= visited + work)
    && (forall v :: v in visited ==> !Dangling(reg, v))
    && (forall s :: Closed(reg, s) && seeds <= s ==> visited + work <= s)
  }

  lemma ExploreStep(reg: Registry, seeds: set<nat>, visited: set<nat>, work: set<nat>, i: nat)
    requires LookupInRange(reg)
    requires ExploreInv(reg, seeds, visited, work)
    requires i in work && !Dangling(reg, i)
    ensures ExploreInv(reg, seeds, visited + {i}, (work - {i}) + (Successors(reg, i) - (visited + {i})))
    ensures Below(|reg.models|) - (visited + {i}) < Below(|reg.models|) - visited
  {
    var visited' := visited + {i};
    var work' := (work - {i}) + (Successors(reg, i) - visited');
    assert visited' + work' == visited + work + Successors(reg, i);
    forall s | Closed(reg, s) && seeds <= s
      ensures visited' + work' <= s
    {
      assert i in s;
      assert Successors(reg, i) <= s;
    }
  }

  lemma ExploreDone(reg: Registry, seeds: set<nat>, visited: set<nat>)
    requires LookupInRange(reg)
    requires ExploreInv(reg, seeds, visited, {})
    ensures IsClosureOf(reg, seeds, visited)
    ensures forall i :: i in visited ==> i < |reg.models| && !Dangling(reg, i)
  {
    assert visited + {} == visited;
  }

  lemma ExploreFails(reg: Registry, seeds: set<nat>, visited: set<nat>, work: set<nat>, i: nat, e: GenError)
    requires LookupInRange(reg)
    requires ExploreInv(reg, seeds, visited, work)
    requires i in work && FailsOn(reg.lookup, reg.models[i].fields, e)
    ensures ReachesDangling(reg, seeds)
    ensures SeedsFailWith(reg, seeds, e)
  {
    assert Dangling(reg, i);
    forall s | Closed(reg, s) && seeds <= s
      ensures i in s && exists j :: j in s && j < |reg.models| && Dangling(reg, j)
    {
      assert i in s;
    }
  }

  /**
   * The worklist closure: visits each model at most once, so it ends on
   * cyclic references too. Fails with the first unresolved field of the
   * first visited model that has one.
   */
  method Explore(reg: Registry, seeds: set<nat>) returns (r: Result<set<nat>, GenError>)
    requires LookupInRange(reg)
    requires forall i :: i in seeds ==> i < |reg.models|
    ensures r.Success? ==> IsClosureOf(reg, seeds, r.value)
    ensures r.Success? ==> forall i :: i in r.value ==> i < |reg.models| && !Dangling(reg, i)
    ensures r.Failure? ==> ReachesDangling(reg, seeds)
    ensures r.Failure? ==> SeedsFailWith(reg, seeds, r.error)
  {
    var visited: set<nat> := {};
    var work := seeds;
    while work != {}
      invariant ExploreInv(reg, seeds, visited, work)
      decreases |Below(|reg.models|) - visited|
    {
      var i :| i in work;
      var bad := FirstDangling(reg, reg.models[i].fields);
      if bad.Some? {
        var e := UnknownModel(BaseType(bad.value), bad.value.name);
        assert FailsOn(reg.lookup, reg.models[i].fields, e);
        ExploreFails(reg, seeds, visited, work, i, e);
        return Failure(e);
      }
      ExploreStep(reg, seeds, visited, work, i);
      visited := visited + {i};
      work := (work - {i}) + (Successors(reg, i) - visited);
    }
    ExploreDone(reg, seeds, visited);
    return Success(visited);
  }

  /** The models whose flag `d` is set. */
  function Flagged(reg: Registry, d: Direction): set<nat> {
    set i | 0 <= i < |reg.models| && Flag(reg.models[i], d)
  }

  /** Same models except possibly for flags, same lookup: the reference graph is the same. */
  ghost predicate SameShape(a: Registry, b: Registry) {
    && a.lookup == b.lookup
    && |a.models| == |b.models|
    && forall i :: 0 <= i < |a.models| ==> a.models[i].fields == b.models[i].fields && a.models[i].name == b.models[i].name
  }

  lemma SameShapeSameGraph(a: Registry, b: Registry)
    requires LookupInRange(a) && SameShape(a, b)
    ensures LookupInRange(b)
    ensures forall s :: Closed(a, s) <==> Closed(b, s)
    ensures forall i :: 0 <= i < |a.models| ==> (Dangling(a, i) <==> Dangling(b, i))
  {
    assert forall n :: n in b.lookup ==> b.lookup[n] < |b.models|;
    assert forall i :: 0 <= i < |a.models| ==> Successors(a, i) == Successors(b, i);
  }

  /**
   * `enableMarshal` / `enableUnmarshal` over all flagged models: flag `d`
   * ends up set on exactly the models reachable from the models that had
   * it; nothing else of any model changes.
   */
  method Propagate(reg: Registry, d: Direction) returns (r: Result<Registry, GenError>)
    requires WellFormed(reg)
    ensures r.Success? ==>
              && WellFormed(r.value) && SameShape(reg, r.value)
              && (forall i :: 0 <= i < |reg.models| ==>
                    r.value.models[i] == WithFlag(reg.models[i], d, Flag(r.value.models[i], d)))
              && Flagged(reg, d) <= Flagged(r.value, d)
              && IsClosureOf(reg, Flagged(reg, d), Flagged(r.value, d))
              && (forall i :: i in Flagged(r.value, d) ==> !Dangling(reg, i))
    ensures r.Failure? <==> ReachesDangling(reg, Flagged(reg, d))
    ensures r.Failure? ==> SeedsFailWith(reg, Flagged(reg, d), r.error)
  {
    var seeds := Flagged(reg, d);
    var closure :- Explore(reg, seeds);
    var models := seq(|reg.models|, i requires 0 <= i < |reg.models| => WithFlag(reg.models[i], d, i in closure));
    var next := Registry(models, reg.lookup);
    assert Flagged(next, d) == closure;
    SameShapeSameGraph(reg, next);
    ClosureAvoidsDangling(reg, seeds, closure);
    return Success(next);
  }

  /** A closure free of unresolved references is a witness that the seeds reach none. */
  lemma ClosureAvoidsDangling(reg: Registry, seeds: set<nat>, c: set<nat>)
    requires LookupInRange(reg)
    requires IsClosureOf(reg, seeds, c)
    requires forall i :: i in c ==> i < |reg.models| && !Dangling(reg, i)
    ensures !ReachesDangling(reg, seeds)
  {
    assert Closed(reg, c) && seeds <= c;
  }

  /** Closure and unresolved references read the same on registries of the same shape. */
  lemma SameShapeSameClosure(a: Registry, b: Registry, seeds: set<nat>, r: set<nat>)
    requires LookupInRange(a) && SameShape(a, b)
    ensures LookupInRange(b)
    ensures IsClosureOf(a, seeds, r) <==> IsClosureOf(b, seeds, r)
    ensures ReachesDangling(a, seeds) <==> ReachesDangling(b, seeds)
  {
    SameShapeSameGraph(a, b);
  }

  /** Two passes, each changing one flag only, keep everything but the flags and never clear one. */
  lemma TwoPasses(reg: Registry, mid: Registry, last: Registry)
    requires |mid.models| == |reg.models| && |last.models| == |reg.models|
    requires forall i :: 0 <= i < |reg.models| ==> mid.models[i] == WithFlag(reg.models[i], Marshal, Flag(mid.models[i], Marshal))
    requires forall i :: 0 <= i < |reg.models| ==> last.models[i] == WithFlag(mid.models[i], Unmarshal, Flag(last.models[i], Unmarshal))
    requires Flagged(reg, Marshal) <= Flagged(mid, Marshal)
    requires Flagged(mid, Unmarshal) <= Flagged(last, Unmarshal)
    ensures Flagged(last, Marshal) == Flagged(mid, Marshal)
    ensures Flagged(mid, Unmarshal) == Flagged(reg, Unmarshal)
    ensures forall i :: 0 <= i < |reg.models| ==>
              && last.models[i].primitive == reg.models[i].primitive
              && last.models[i].mapDetails == reg.models[i].mapDetails
              && (reg.models[i].canMarshal ==> last.models[i].canMarshal)
              && (reg.models[i].canUnmarshal ==> last.models[i].canUnmarshal)
  {
    forall i | 0 <= i < |reg.models|
      ensures && last.models[i].primitive == reg.models[i].primitive
              && last.models[i].mapDetails == reg.models[i].mapDetails
              && (reg.models[i].canMarshal ==> last.models[i].canMarshal)
              && (reg.models[i].canUnmarshal ==> last.models[i].canUnmarshal)
    {
      if reg.models[i].canMarshal {
        assert i in Flagged(reg, Marshal);
      }
      if reg.models[i].canUnmarshal {
        assert i in Flagged(mid, Unmarshal);
      }
    }
  }

  /**
   * `ApplyMarshalFlags`: closes `canMarshal`, then `canUnmarshal`, over the
   * references between models.
   */
  method ApplyMarshalFlags(reg: Registry) returns (r: Result<Registry, GenError>)
    requires WellFormed(reg)
    ensures r.Success? ==>
              && WellFormed(r.value) && SameShape(reg, r.value)
              && (forall i :: 0 <= i < |reg.models| ==>
                    && r.value.models[i].primitive == reg.models[i].primitive
                    && r.value.models[i].mapDetails == reg.models[i].mapDetails
                    && (reg.models[i].canMarshal ==> r.value.models[i].canMarshal)
                    && (reg.models[i].canUnmarshal ==> r.value.models[i].canUnmarshal))
              && IsClosureOf(reg, Flagged(reg, Marshal), Flagged(r.value, Marshal))
              && IsClosureOf(reg, Flagged(reg, Unmarshal), Flagged(r.value, Unmarshal))
              && (forall i :: i in Flagged(r.value, Marshal) ==> i < |reg.models| && !Dangling(reg, i))
              && (forall i :: i in Flagged(r.value, Unmarshal) ==> i < |reg.models| && !Dangling(reg, i))
    ensures r.Failure? <==> ReachesDangling(reg, Flagged(reg, Marshal)) || ReachesDangling(reg, Flagged(reg, Unmarshal))
    ensures r.Failure? && ReachesDangling(reg, Flagged(reg, Marshal)) ==> SeedsFailWith(reg, Flagged(reg, Marshal), r.error)
    ensures r.Failure? && !ReachesDangling(reg, Flagged(reg, Marshal)) ==> SeedsFailWith(reg, Flagged(reg, Unmarshal), r.error)
  {
    var marshalled := Propagate(reg, Marshal);
    if marshalled.Failure? {
      return Failure(marshalled.error);
    }
    r := Propagate(marshalled.value, Unmarshal);
    TwoPassesFlags(reg, marshalled.value);
    SameShapeSameClosure(reg, marshalled.value, Flagged(reg, Unmarshal), {});
    if r.Failure? {
      SameShapeSameFailure(reg, marshalled.value, Flagged(reg, Unmarshal), r.error);
    }
    if r.Success? {
      TwoPasses(reg, marshalled.value, r.value);
      SameShapeSameClosure(reg, marshalled.value, Flagged(reg, Unmarshal), Flagged(r.value, Unmarshal));
      SameShapeSameGraph(reg, marshalled.value);
      ClosureAvoidsDangling(reg, Flagged(reg, Marshal), Flagged(r.value, Marshal));
    }
  }

  lemma TwoPassesFlags(reg: Registry, mid: Registry)
    requires |mid.models| == |reg.models|
    requires forall i :: 0 <= i < |reg.models| ==> mid.models[i] == WithFlag(reg.models[i], Marshal, Flag(mid.models[i], Marshal))
    ensures Flagged(mid, Unmarshal) == Flagged(reg, Unmarshal)
  {
  }
  function Other(d: Direction): Direction {
    if d.Marshal? then Unmarshal else Marshal
  }

  /** Flag `d` only grows, the other flag and everything else stay as they were. */
  ghost predicate FlagOnlyGrows(before: Registry, after: Registry, d: Direction) {
    && SameShape(before, after)
    && (forall j :: 0 <= j < |before.models| && Flag(before.models[j], d) ==> Flag(after.models[j], d))
    && (forall j :: 0 <= j < |before.models| ==> Flag(after.models[j], Other(d)) == Flag(before.models[j], Other(d)))
  }

  /** How a depth-bounded run of the source's recursion ends. */
  datatype Run = Finished(reg: Registry) | Fatal(error: GenError) | OutOfFuel

  /** The pointer assignment `m.CanMarshal = true` (or `CanUnmarshal`) on model `i`. */
  function SetFlagAt(reg: Registry, i: nat, d: Direction): (r: Registry)
    requires i < |reg.models|
    ensures FlagOnlyGrows(reg, r, d) && Flag(r.models[i], d)
  {
    Registry(reg.models[i := WithFlag(reg.models[i], d, true)], reg.lookup)
  }

  /**
   * `enableMarshal` / `enableUnmarshal` as the source writes them: set the
   * flag, then recurse into every referenced model whether or not it is
   * already flagged. `fuel` bounds the depth of the recursion; running out
   * of it stands for the source's unbounded recursion.
   */
  function EnableAsWritten(reg: Registry, d: Direction, i: nat, fuel: nat): (r: Run)
    requires LookupInRange(reg) && i < |reg.models|
    ensures r.Finished? ==> FlagOnlyGrows(reg, r.reg, d) && Flag(r.reg.models[i], d)
    ensures r.Finished? ==> Reaches(reg, r.reg, d, reg.models[i].fields)
    decreases fuel, 0
  {
    if fuel == 0 then OutOfFuel
    else
      var flagged := SetFlagAt(reg, i, d);
      SameShapeSameGraph(reg, flagged);
      var r := EnableFieldsAsWritten(flagged, d, reg.models[i].fields, fuel - 1);
      if r.Finished? then
        FlagOnlyGrowsTrans(reg, flagged, r.reg, d);
        r
      else r
  }

  /** The loop over `fs` inside `EnableAsWritten`. */
  function EnableFieldsAsWritten(reg: Registry, d: Direction, fs: seq<ModelField>, fuel: nat): (r: Run)
    requires LookupInRange(reg)
    ensures r.Finished? ==> FlagOnlyGrows(reg, r.reg, d)
    ensures r.Finished? ==> Reaches(reg, r.reg, d, fs)
    decreases fuel, 1, |fs|
  {
    if |fs| == 0 then Finished(reg)
    else if !Propagates(fs[0]) then
      var r := EnableFieldsAsWritten(reg, d, fs[1..], fuel);
      ReachesCons(reg, r, d, fs);
      r
    else if BaseType(fs[0]) !in reg.lookup then Fatal(UnknownModel(BaseType(fs[0]), fs[0].name))
    else
      match EnableAsWritten(reg, d, reg.lookup[BaseType(fs[0])], fuel)
      case Finished(next) =>
        SameShapeSameGraph(reg, next);
        var r := EnableFieldsAsWritten(next, d, fs[1..], fuel);
        if r.Finished? then
          FlagOnlyGrowsTrans(reg, next, r.reg, d);
          ReachesStep(reg, next, r.reg, d, fs);
          r
        else r
      case Fatal(e) => Fatal(e)
      case OutOfFuel => OutOfFuel
  }

  /**
   * The source's `log.Fatalf` is justified: a fatal error names the
   * unregistered base type of a propagating field of a model reachable
   * from the one the recursion started at.
   */
  lemma {:induction false} EnableFatalSound(reg: Registry, d: Direction, i: nat, fuel: nat)
    requires LookupInRange(reg) && i < |reg.models|
    ensures var r := EnableAsWritten(reg, d, i, fuel);
            r.Fatal? ==> exists j :: 0 <= j < |reg.models| && Reachable(reg, i, j) && FailsOn(reg.lookup, reg.models[j].fields, r.error)
    decreases fuel, 0
  {
    if fuel > 0 {
      var flagged := SetFlagAt(reg, i, d);
      assert LookupInRange(flagged);
      FieldsFatalSound(flagged, d, reg.models[i].fields, fuel - 1);
      var r := EnableFieldsAsWritten(flagged, d, reg.models[i].fields, fuel - 1);
      if r.Fatal? {
        FatalLifts(reg, flagged, i, r.error);
      }
    }
  }

  /** The same for the field loop: the failure is on `fs` or reachable from a model `fs` refers to. */
  lemma {:induction false} FieldsFatalSound(reg: Registry, d: Direction, fs: seq<ModelField>, fuel: nat)
    requires LookupInRange(reg)
    ensures var r := EnableFieldsAsWritten(reg, d, fs, fuel); r.Fatal? ==> FatalFrom(reg, fs, r.error)
    decreases fuel, 1, |fs|
  {
    if |fs| == 0 {
    } else if !Propagates(fs[0]) {
      FieldsFatalSound(reg, d, fs[1..], fuel);
      var r := EnableFieldsAsWritten(reg, d, fs[1..], fuel);
      if r.Fatal? {
        FatalStep(reg, reg, fs, r.error);
      }
    } else if BaseType(fs[0]) !in reg.lookup {
      assert FailsOn(reg.lookup, fs, UnknownModel(BaseType(fs[0]), fs[0].name));
    } else {
      var t := reg.lookup[BaseType(fs[0])];
      EnableFatalSound(reg, d, t, fuel);
      match EnableAsWritten(reg, d, t, fuel)
      case Finished(next) =>
        assert LookupInRange(next);
        FieldsFatalSound(next, d, fs[1..], fuel);
        var r := EnableFieldsAsWritten(next, d, fs[1..], fuel);
        if r.Fatal? {
          FatalStep(reg, next, fs, r.error);
        }
      case Fatal(e) =>
        FatalHere(reg, fs, e);
      case OutOfFuel =>
    }
  }

  /**
   * Every path of field references from model `i` resolves and ends, after
   * fewer than `n` steps, at a model with no propagating field. A model that
   * reaches itself never settles.
   */
  ghost predicate Settles(reg: Registry, i: nat, n: nat)
    requires LookupInRange(reg) && i < |reg.models|
    decreases n
  {
    && n > 0
    && forall k :: 0 <= k < |reg.models[i].fields| && Propagates(reg.models[i].fields[k]) ==>
         BaseType(reg.models[i].fields[k]) in reg.lookup && Settles(reg, reg.lookup[BaseType(reg.models[i].fields[k])], n - 1)
  }

  /** Every propagating field of `fs` resolves to a model that settles within `n`. */
  ghost predicate FieldsSettle(reg: Registry, fs: seq<ModelField>, n: nat)
    requires LookupInRange(reg)
  {
    forall k :: 0 <= k < |fs| && Propagates(fs[k]) ==>
      BaseType(fs[k]) in reg.lookup && Settles(reg, reg.lookup[BaseType(fs[k])], n)
  }

  /** Settling depends only on names, fields and lookup, not on flags. */
  lemma {:induction false} SettlesSameShape(a: Registry, b: Registry, i: nat, n: nat)
    requires LookupInRange(a) && SameShape(a, b) && i < |a.models|
    ensures LookupInRange(b)
    ensures Settles(a, i, n) ==> Settles(b, i, n)
    decreases n
  {
    assert LookupInRange(b);
    if Settles(a, i, n) {
      var fs := a.models[i].fields;
      forall k | 0 <= k < |fs| && Propagates(fs[k])
        ensures BaseType(fs[k]) in b.lookup && Settles(b, b.lookup[BaseType(fs[k])], n - 1)
      {
        SettlesSameShape(a, b, a.lookup[BaseType(fs[k])], n - 1);
      }
    }
  }

  lemma FieldsSettleSameShape(a: Registry, b: Registry, fs: seq<ModelField>, n: nat)
    requires LookupInRange(a) && SameShape(a, b) && FieldsSettle(a, fs, n)
    ensures LookupInRange(b) && FieldsSettle(b, fs, n)
  {
    forall k | 0 <= k < |fs| && Propagates(fs[k])
      ensures BaseType(fs[k]) in b.lookup && Settles(b, b.lookup[BaseType(fs[k])], n)
    {
      SettlesSameShape(a, b, a.lookup[BaseType(fs[k])], n);
    }
  }

  /**
   * The source's recursion returns on a model whose reference paths all end
   * within `n` steps, given a recursion depth of at least `n`.
   */
  lemma {:induction false} SettledFinishes(reg: Registry, d: Direction, i: nat, n: nat, fuel: nat)
    requires LookupInRange(reg) && i < |reg.models| && Settles(reg, i, n) && fuel >= n
    ensures EnableAsWritten(reg, d, i, fuel).Finished?
    decreases fuel, 0
  {
    var flagged := SetFlagAt(reg, i, d);
    var fs := reg.models[i].fields;
    assert FieldsSettle(reg, fs, n - 1);
    FieldsSettleSameShape(reg, flagged, fs, n - 1);
    SettledFieldsFinish(flagged, d, fs, n - 1, fuel - 1);
  }

  lemma {:induction false} SettledFieldsFinish(reg: Registry, d: Direction, fs: seq<ModelField>, n: nat, fuel: nat)
    requires LookupInRange(reg) && FieldsSettle(reg, fs, n) && fuel >= n
    ensures EnableFieldsAsWritten(reg, d, fs, fuel).Finished?
    decreases fuel, 1, |fs|
  {
    if |fs| > 0 {
      assert forall k :: 0 <= k < |fs[1..]| ==> fs[1..][k] == fs[k + 1];
      assert FieldsSettle(reg, fs[1..], n);
      if !Propagates(fs[0]) {
        SettledFieldsFinish(reg, d, fs[1..], n, fuel);
      } else {
        var t := reg.lookup[BaseType(fs[0])];
        SettledFinishes(reg, d, t, n, fuel);
        var next := EnableAsWritten(reg, d, t, fuel).reg;
        FieldsSettleSameShape(reg, next, fs[1..], n);
        SettledFieldsFinish(next, d, fs[1..], n, fuel);
      }
    }
  }

  /** A model with a propagating field of its own type settles within no bound. */
  lemma {:induction false} SelfReferenceNeverSettles(reg: Registry, i: nat, k: nat, n: nat)
    requires LookupInRange(reg) && i < |reg.models| && k < |reg.models[i].fields|
    requires Propagates(reg.models[i].fields[k])
    requires BaseType(reg.models[i].fields[k]) in reg.lookup && reg.lookup[BaseType(reg.models[i].fields[k])] == i
    ensures !Settles(reg, i, n)
    decreases n
  {
    if n > 0 {
      SelfReferenceNeverSettles(reg, i, k, n - 1);
    }
  }

  /**
   * When the first propagating field of model `i` names an unregistered
   * type, the recursion stops at once with the source's fatal error for it.
   */
  lemma FirstMissingIsFatal(reg: Registry, d: Direction, i: nat, k: nat, fuel: nat)
    requires LookupInRange(reg) && i < |reg.models| && k < |reg.models[i].fields| && fuel > 0
    requires forall j :: 0 <= j < k ==> !Propagates(reg.models[i].fields[j])
    requires Propagates(reg.models[i].fields[k]) && BaseType(reg.models[i].fields[k]) !in reg.lookup
    ensures EnableAsWritten(reg, d, i, fuel) == Fatal(UnknownModel(BaseType(reg.models[i].fields[k]), reg.models[i].fields[k].name))
  {
    var fs := reg.models[i].fields;
    var flagged := SetFlagAt(reg, i, d);
    assert flagged.lookup == reg.lookup;
    SkipInert(flagged, d, fs, k, fuel - 1);
    assert fs[k..][0] == fs[k];
  }

  /** Model `j` lies in every closed set that holds model `i`: `i` reaches `j` along field references. */
  ghost predicate Reachable(reg: Registry, i: nat, j: nat)
    requires LookupInRange(reg)
  {
    forall s :: Closed(reg, s) && i in s ==> j in s
  }

  /** `e` is the source's fatal error for a propagating field of `fs` whose base type is not registered. */
  ghost predicate FailsOn(lookup: map<string, nat>, fs: seq<ModelField>, e: GenError) {
    exists k :: 0 <= k < |fs| && Propagates(fs[k]) && BaseType(fs[k]) !in lookup
                && e == UnknownModel(BaseType(fs[k]), fs[k].name)
  }

  /**
   * `e` is the fatal error of a model that every closed set holding the
   * seeds holds: some model the seeds reach has a field failing with `e`.
   */
  ghost predicate SeedsFailWith(reg: Registry, seeds: set<nat>, e: GenError) {
    && LookupInRange(reg)
    && exists i :: 0 <= i < |reg.models| && (forall s :: Closed(reg, s) && seeds <= s ==> i in s)
                   && FailsOn(reg.lookup, reg.models[i].fields, e)
  }

  /** Flags do not change which fatal errors the seeds can lead to. */
  lemma SameShapeSameFailure(a: Registry, b: Registry, seeds: set<nat>, e: GenError)
    requires LookupInRange(a) && SameShape(a, b)
    ensures SeedsFailWith(a, seeds, e) <==> SeedsFailWith(b, seeds, e)
  {
    SameShapeSameGraph(a, b);
    if SeedsFailWith(a, seeds, e) {
      var i :| 0 <= i < |a.models| && (forall s :: Closed(a, s) && seeds <= s ==> i in s)
               && FailsOn(a.lookup, a.models[i].fields, e);
      assert FailsOn(b.lookup, b.models[i].fields, e);
    }
    if SeedsFailWith(b, seeds, e) {
      var i :| 0 <= i < |b.models| && (forall s :: Closed(b, s) && seeds <= s ==> i in s)
               && FailsOn(b.lookup, b.models[i].fields, e);
      assert FailsOn(a.lookup, a.models[i].fields, e);
    }
  }

  /** `e` fails on `fs` itself or on a model reachable from one of the models `fs` refers to. */
  ghost predicate FatalFrom(reg: Registry, fs: seq<ModelField>, e: GenError)
    requires LookupInRange(reg)
  {
    || FailsOn(reg.lookup, fs, e)
    || exists t, j :: t in FieldTargets(reg.lookup, fs) && 0 <= j < |reg.models| && Reachable(reg, t, j)
                      && FailsOn(reg.lookup, reg.models[j].fields, e)
  }

  /** Flags do not change which fatal error a field list can lead to. */
  lemma FatalFromSameShape(a: Registry, b: Registry, fs: seq<ModelField>, e: GenError)
    requires LookupInRange(a) && SameShape(a, b)
    ensures LookupInRange(b)
    ensures FatalFrom(b, fs, e) ==> FatalFrom(a, fs, e)
  {
    SameShapeSameGraph(a, b);
    if FatalFrom(b, fs, e) && !FailsOn(b.lookup, fs, e) {
      var t, j :| t in FieldTargets(b.lookup, fs) && 0 <= j < |b.models| && Reachable(b, t, j)
                  && FailsOn(b.lookup, b.models[j].fields, e);
      assert Reachable(a, t, j);
    }
  }

  /** A failure in the rest of the fields is a failure of the whole list. */
  lemma FatalStep(reg: Registry, next: Registry, fs: seq<ModelField>, e: GenError)
    requires LookupInRange(reg) && SameShape(reg, next) && |fs| > 0
    requires LookupInRange(next) && FatalFrom(next, fs[1..], e)
    ensures FatalFrom(reg, fs, e)
  {
    FatalFromSameShape(reg, next, fs[1..], e);
    if FailsOn(reg.lookup, fs[1..], e) {
      var k :| 0 <= k < |fs[1..]| && Propagates(fs[1..][k]) && BaseType(fs[1..][k]) !in reg.lookup
               && e == UnknownModel(BaseType(fs[1..][k]), fs[1..][k].name);
      assert fs[k + 1] == fs[1..][k];
    } else {
      var t, j :| t in FieldTargets(reg.lookup, fs[1..]) && 0 <= j < |reg.models| && Reachable(reg, t, j)
                  && FailsOn(reg.lookup, reg.models[j].fields, e);
      assert t in FieldTargets(reg.lookup, fs);
    }
  }

  /** A failure inside the model the first field refers to is a failure of the list. */
  lemma FatalHere(reg: Registry, fs: seq<ModelField>, e: GenError)
    requires LookupInRange(reg) && |fs| > 0 && Propagates(fs[0]) && BaseType(fs[0]) in reg.lookup
    requires exists j :: 0 <= j < |reg.models| && Reachable(reg, reg.lookup[BaseType(fs[0])], j)
                         && FailsOn(reg.lookup, reg.models[j].fields, e)
    ensures FatalFrom(reg, fs, e)
  {
    var t := reg.lookup[BaseType(fs[0])];
    assert t in FieldTargets(reg.lookup, fs);
  }

  /** A failure in model `i`'s fields, seen after flagging `i`, is reachable from `i`. */
  lemma FatalLifts(reg: Registry, flagged: Registry, i: nat, e: GenError)
    requires LookupInRange(reg) && i < |reg.models| && SameShape(reg, flagged)
    requires LookupInRange(flagged) && FatalFrom(flagged, reg.models[i].fields, e)
    ensures exists j :: 0 <= j < |reg.models| && Reachable(reg, i, j) && FailsOn(reg.lookup, reg.models[j].fields, e)
  {
    FatalFromSameShape(reg, flagged, reg.models[i].fields, e);
    if FailsOn(reg.lookup, reg.models[i].fields, e) {
      assert Reachable(reg, i, i);
    } else {
      var t, j :| t in FieldTargets(reg.lookup, reg.models[i].fields) && 0 <= j < |reg.models| && Reachable(reg, t, j)
                  && FailsOn(reg.lookup, reg.models[j].fields, e);
      ReachableStep(reg, i, t, j);
    }
  }

  /** Following one field reference and then a path is a path. */
  lemma ReachableStep(reg: Registry, i: nat, t: nat, j: nat)
    requires LookupInRange(reg) && i < |reg.models|
    requires t in Successors(reg, i) && Reachable(reg, t, j)
    ensures Reachable(reg, i, j)
  {
    forall s | Closed(reg, s) && i in s ensures j in s {
      assert t in s;
    }
  }

  /**
   * Every propagating field among `fs` resolves in `before`, and the model
   * it resolves to carries flag `d` in `after`.
   */
  ghost predicate Reaches(before: Registry, after: Registry, d: Direction, fs: seq<ModelField>)
    requires LookupInRange(before) && SameShape(before, after)
  {
    forall k :: 0 <= k < |fs| && Propagates(fs[k]) ==>
      BaseType(fs[k]) in before.lookup && Flag(after.models[before.lookup[BaseType(fs[k])]], d)
  }

  lemma ReachesCons(reg: Registry, r: Run, d: Direction, fs: seq<ModelField>)
    requires LookupInRange(reg) && |fs| > 0 && !Propagates(fs[0])
    requires r.Finished? ==> FlagOnlyGrows(reg, r.reg, d) && Reaches(reg, r.reg, d, fs[1..])
    ensures r.Finished? ==> Reaches(reg, r.reg, d, fs)
  {
    if r.Finished? {
      forall k | 0 < k < |fs| ensures fs[k] == fs[1..][k - 1] {}
    }
  }

  lemma ReachesStep(reg: Registry, next: Registry, last: Registry, d: Direction, fs: seq<ModelField>)
    requires LookupInRange(reg) && |fs| > 0 && Propagates(fs[0]) && BaseType(fs[0]) in reg.lookup
    requires FlagOnlyGrows(reg, next, d) && Flag(next.models[reg.lookup[BaseType(fs[0])]], d)
    requires LookupInRange(next) && FlagOnlyGrows(next, last, d) && Reaches(next, last, d, fs[1..])
    requires FlagOnlyGrows(reg, last, d)
    ensures Reaches(reg, last, d, fs)
  {
    forall k | 0 < k < |fs| ensures fs[k] == fs[1..][k - 1] {}
  }

  lemma FlagOnlyGrowsTrans(a: Registry, b: Registry, c: Registry, d: Direction)
    requires FlagOnlyGrows(a, b, d) && FlagOnlyGrows(b, c, d)
    ensures FlagOnlyGrows(a, c, d)
  {
  }

  /** Fields that do not propagate are skipped without effect. */
  lemma {:induction false} SkipInert(reg: Registry, d: Direction, fs: seq<ModelField>, k: nat, fuel: nat)
    requires LookupInRange(reg) && k <= |fs|
    requires forall j :: 0 <= j < k ==> !Propagates(fs[j])
    ensures EnableFieldsAsWritten(reg, d, fs, fuel) == EnableFieldsAsWritten(reg, d, fs[k..], fuel)
    decreases k
  {
    if k > 0 {
      assert forall j :: 0 <= j < k - 1 ==> fs[1..][j] == fs[j + 1];
      SkipInert(reg, d, fs[1..], k - 1, fuel);
      assert fs[1..][k - 1..] == fs[k..];
    }
  }

  /**
   * A message whose first propagating field has its own type makes the
   * source's recursion run out of every depth bound: it never returns.
   */
  lemma {:induction false} SelfReferenceDiverges(reg: Registry, d: Direction, i: nat, k: nat, fuel: nat)
    requires LookupInRange(reg) && i < |reg.models| && k < |reg.models[i].fields|
    requires forall j :: 0 <= j < k ==> !Propagates(reg.models[i].fields[j])
    requires Propagates(reg.models[i].fields[k])
    requires BaseType(reg.models[i].fields[k]) in reg.lookup && reg.lookup[BaseType(reg.models[i].fields[k])] == i
    ensures EnableAsWritten(reg, d, i, fuel) == OutOfFuel
    decreases fuel
  {
    if fuel > 0 {
      var fs := reg.models[i].fields;
      var flagged := SetFlagAt(reg, i, d);
      assert flagged.lookup == reg.lookup && flagged.models[i].fields == fs;
      SelfReferenceDiverges(flagged, d, i, k, fuel - 1);
      SkipInert(flagged, d, fs, k, fuel - 1);
      FieldLoopStalls(flagged, d, i, fs[k..], fuel - 1);
      StallLifts(reg, d, i, fuel);
    }
  }

  /** A model whose field loop stalls after flagging it stalls. */
  lemma StallLifts(reg: Registry, d: Direction, i: nat, fuel: nat)
    requires LookupInRange(reg) && i < |reg.models| && fuel > 0
    requires EnableFieldsAsWritten(SetFlagAt(reg, i, d), d, reg.models[i].fields, fuel - 1) == OutOfFuel
    ensures EnableAsWritten(reg, d, i, fuel) == OutOfFuel
  {
  }

  /** A field loop whose first field re-enters a model that stalls stalls too. */
  lemma FieldLoopStalls(reg: Registry, d: Direction, i: nat, fs: seq<ModelField>, fuel: nat)
    requires LookupInRange(reg) && i < |reg.models| && |fs| > 0 && Propagates(fs[0])
    requires BaseType(fs[0]) in reg.lookup && reg.lookup[BaseType(fs[0])] == i
    requires EnableAsWritten(reg, d, i, fuel) == OutOfFuel
    ensures EnableFieldsAsWritten(reg, d, fs, fuel) == OutOfFuel
  {
  }
}

=== FILE: services.dfy ===
/**
 * The service builder: one `Service` per schema service, one
 * `ServiceMethod` per RPC method, with TypeScript naming.
 */
module ServiceBuilder {
  import opened Wrappers
  import opened Text
  import opened Descriptor
  import opened Models
  import opened TypeMapper

  /**
   * One RPC method. The route path is the schema name verbatim; the method
   * and argument names lower-case only the first character, which the
   * source slices out and so cannot do on an empty name.
   */
  function BuildMethod(md: MethodDescriptor, pkg: string, serviceName: string): (r: Result<ServiceMethod, GenError>)
    ensures r.Failure? <==> |md.name| == 0 || |RemovePkg(md.inputType, pkg)| == 0
    ensures r.Failure? ==>
              r.error == (if |md.name| == 0 then EmptyMethodName(serviceName) else EmptyInputType(md.name))
    ensures r.Success? ==>
              && r.value.path == md.name
              && r.value.inputType == RemovePkg(md.inputType, pkg)
              && r.value.outputType == RemovePkg(md.outputType, pkg)
              && |r.value.name| == |md.name|
              && r.value.name[0] == LowerChar(md.name[0]) && r.value.name[1..] == md.name[1..]
              && |r.value.inputArg| == |r.value.inputType|
              && r.value.inputArg[0] == LowerChar(r.value.inputType[0])
              && r.value.inputArg[1..] == r.value.inputType[1..]
  {
    if |md.name| == 0 then Failure(EmptyMethodName(serviceName))
    else
      var input := RemovePkg(md.inputType, pkg);
      if |input| == 0 then Failure(EmptyInputType(md.name))
      else
        Success(ServiceMethod(
          name := LowerFirst(md.name),
          path := md.name,
          inputArg := LowerFirst(input),
          inputType := input,
          outputType := RemovePkg(md.outputType, pkg)))
  }

  /** The TypeScript method name and the route path differ at most in the case of the first letter. */
  lemma MethodNameMatchesPath(md: MethodDescriptor, pkg: string, serviceName: string)
    requires BuildMethod(md, pkg, serviceName).Success?
    ensures var m := BuildMethod(md, pkg, serviceName).value;
            Lower(m.name) == Lower(m.path) && |m.name| == |m.path|
            && forall k :: 0 < k < |m.path| ==> m.name[k] == m.path[k]
  {
    var m := BuildMethod(md, pkg, serviceName).value;
    assert LowerChar(LowerChar(md.name[0])) == LowerChar(md.name[0]);
    assert forall k :: 0 < k < |m.path| ==> m.name[k] == m.name[1..][k - 1];
  }

  /** The methods of one service, in schema order. */
  function BuildMethods(mds: seq<MethodDescriptor>, pkg: string, serviceName: string): (r: Result<seq<ServiceMethod>, GenError>)
    ensures r.Success? <==> forall k :: 0 <= k < |mds| ==> BuildMethod(mds[k], pkg, serviceName).Success?
    ensures r.Success? ==> |r.value| == |mds|
    ensures r.Success? ==> forall k :: 0 <= k < |mds| ==> r.value[k] == BuildMethod(mds[k], pkg, serviceName).value
    ensures r.Failure? ==> exists k :: 0 <= k < |mds| && BuildMethod(mds[k], pkg, serviceName) == Failure(r.error)
                                       && forall j :: 0 <= j < k ==> BuildMethod(mds[j], pkg, serviceName).Success?
  {
    if |mds| == 0 then Success([])
    else
      var head := BuildMethod(mds[0], pkg, serviceName);
      var tail := BuildMethods(mds[1..], pkg, serviceName);
      if head.Failure? then Failure(head.error)
      else if tail.Failure? then
        FirstFailingMethodCons(mds, pkg, serviceName, tail.error);
        Failure(tail.error)
      else
        assert forall k :: 0 < k < |mds| ==> mds[k] == mds[1..][k - 1];
        Success([head.value] + tail.value)
  }

  /** A method that builds in front of the first failing one leaves that one the first to fail. */
  lemma FirstFailingMethodCons(mds: seq<MethodDescriptor>, pkg: string, serviceName: string, e: GenError)
    requires |mds| > 0 && BuildMethod(mds[0], pkg, serviceName).Success?
    requires exists k :: 0 <= k < |mds[1..]| && BuildMethod(mds[1..][k], pkg, serviceName) == Failure(e)
                         && forall j :: 0 <= j < k ==> BuildMethod(mds[1..][j], pkg, serviceName).Success?
    ensures exists k :: 0 <= k < |mds| && BuildMethod(mds[k], pkg, serviceName) == Failure(e)
                        && forall j :: 0 <= j < k ==> BuildMethod(mds[j], pkg, serviceName).Success?
  {
    var k :| 0 <= k < |mds[1..]| && BuildMethod(mds[1..][k], pkg, serviceName) == Failure(e)
             && forall j :: 0 <= j < k ==> BuildMethod(mds[1..][j], pkg, serviceName).Success?;
    assert mds[k + 1] == mds[1..][k];
    forall j | 0 < j < k + 1 ensures BuildMethod(mds[j], pkg, serviceName).Success? {
      assert mds[j] == mds[1..][j - 1];
    }
  }

  /** A service named as in the schema, owned by package `pkg`. */
  function BuildService(sd: ServiceDescriptor, pkg: string): (r: Result<Service, GenError>)
    ensures r.Success? <==> forall k :: 0 <= k < |sd.methods| ==> BuildMethod(sd.methods[k], pkg, sd.name).Success?
    ensures r.Success? ==> r.value.name == sd.name && r.value.pkg == pkg && |r.value.methods| == |sd.methods|
    ensures r.Success? ==> forall k :: 0 <= k < |sd.methods| ==>
              r.value.methods[k] == BuildMethod(sd.methods[k], pkg, sd.name).value
    ensures r.Failure? ==> exists k :: 0 <= k < |sd.methods| && BuildMethod(sd.methods[k], pkg, sd.name) == Failure(r.error)
                                       && forall j :: 0 <= j < k ==> BuildMethod(sd.methods[j], pkg, sd.name).Success?
  {
    var methods :- BuildMethods(sd.methods, pkg, sd.name);
    Success(Service(sd.name, pkg, methods))
  }

  /** The services of a file, in schema order. */
  function BuildServices(sds: seq<ServiceDescriptor>, pkg: string): (r: Result<seq<Service>, GenError>)
    ensures r.Success? <==> forall k :: 0 <= k < |sds| ==> BuildService(sds[k], pkg).Success?
    ensures r.Success? ==> |r.value| == |sds|
    ensures r.Success? ==> forall k :: 0 <= k < |sds| ==> r.value[k] == BuildService(sds[k], pkg).value
    ensures r.Failure? ==> exists k :: 0 <= k < |sds| && BuildService(sds[k], pkg) == Failure(r.error)
                                       && forall j :: 0 <= j < k ==> BuildService(sds[j], pkg).Success?
  {
    if |sds| == 0 then Success([])
    else
      var head := BuildService(sds[0], pkg);
      var tail := BuildServices(sds[1..], pkg);
      if head.Failure? then Failure(head.error)
      else if tail.Failure? then
        FirstFailingServiceCons(sds, pkg, tail.error);
        Failure(tail.error)
      else
        assert forall k :: 0 < k < |sds| ==> sds[k] == sds[1..][k - 1];
        Success([head.value] + tail.value)
  }

  /** A service that builds in front of the first failing one leaves that one the first to fail. */
  lemma FirstFailingServiceCons(sds: seq<ServiceDescriptor>, pkg: string, e: GenError)
    requires |sds| > 0 && BuildService(sds[0], pkg).Success?
    requires exists k :: 0 <= k < |sds[1..]| && BuildService(sds[1..][k], pkg) == Failure(e)
                         && forall j :: 0 <= j < k ==> BuildService(sds[1..][j], pkg).Success?
    ensures exists k :: 0 <= k < |sds| && BuildService(sds[k], pkg) == Failure(e)
                        && forall j :: 0 <= j < k ==> BuildService(sds[j], pkg).Success?
  {
    var k :| 0 <= k < |sds[1..]| && BuildService(sds[1..][k], pkg) == Failure(e)
             && forall j :: 0 <= j < k ==> BuildService(sds[1..][j], pkg).Success?;
    assert sds[k + 1] == sds[1..][k];
    forall j | 0 < j < k + 1 ensures BuildService(sds[j], pkg).Success? {
      assert sds[j] == sds[1..][j - 1];
    }
  }
}

=== FILE: text.dfy ===
/**
 * The handful of Go `strings` functions the generator relies on, over
 * `seq<char>`. Case mapping is ASCII only.
 */
module Text {

  function LowerChar(c: char): char {
    if 'A' <= c <= 'Z' then (c as int + 32) as char else c
  }

  function UpperChar(c: char): char {
    if 'a' <= c <= 'z' then (c as int - 32) as char else c
  }

  /** `strings.ToLower`, character by character. */
  function Lower(s: string): (r: string)
    ensures |r| == |s|
    ensures forall i :: 0 <= i < |s| ==> r[i] == LowerChar(s[i])
  {
    seq(|s|, i requires 0 <= i < |s| => LowerChar(s[i]))
  }

  lemma LowerAppend(a: string, b: string)
    ensures Lower(a + b) == Lower(a) + Lower(b)
  {
    assert forall i :: 0 <= i < |a + b| ==> Lower(a + b)[i] == (Lower(a) + Lower(b))[i];
  }

  /** `s[0:1]` lower-cased followed by `s[1:]`; the empty string is returned unchanged. */
  function LowerFirst(s: string): (r: string)
    ensures |r| == |s|
    ensures |s| > 0 ==> r[0] == LowerChar(s[0]) && r[1..] == s[1..]
  {
    if |s| == 0 then s else [LowerChar(s[0])] + s[1..]
  }

  predicate HasPrefix(s: string, p: string) {
    |p| <= |s| && s[..|p|] == p
  }

  predicate HasSuffix(s: string, p: string) {
    |p| <= |s| && s[|s| - |p|..] == p
  }

  /** `strings.TrimPrefix`: drops `p` from the front of `s` when it is there. */
  function TrimPrefix(s: string, p: string): (r: string)
    ensures HasPrefix(s, p) ==> p + r == s
    ensures !HasPrefix(s, p) ==> r == s
  {
    if HasPrefix(s, p) then s[|p|..] else s
  }

  /** `strings.TrimSuffix`: drops `p` from the end of `s` when it is there. */
  function TrimSuffix(s: string, p: string): (r: string)
    ensures HasSuffix(s, p) ==> r + p == s
    ensures !HasSuffix(s, p) ==> r == s
  {
    if HasSuffix(s, p) then s[..|s| - |p|] else s
  }

  lemma TrimSuffixOfAppend(s: string, p: string)
    ensures TrimSuffix(s + p, p) == s
  {
    assert (s + p)[|s + p| - |p|..] == p;
    assert (s + p)[..|s + p| - |p|] == s;
  }

  /** `strings.Replace(s, old, "", -1)` for a one-character `old`. */
  function RemoveAll(s: string, c: char): (r: string)
    ensures c !in r
    ensures |r| <= |s|
  {
    if |s| == 0 then "" else (if s[0] == c then "" else [s[0]]) + RemoveAll(s[1..], c)
  }

  lemma RemoveAllAppend(a: string, b: string, c: char)
    ensures RemoveAll(a + b, c) == RemoveAll(a, c) + RemoveAll(b, c)
  {
    if |a| > 0 {
      assert (a + b)[1..] == a[1..] + b;
      RemoveAllAppend(a[1..], b, c);
    } else {
      assert a + b == b;
    }
  }

  lemma RemoveAllAbsent(s: string, c: char)
    requires c !in s
    ensures RemoveAll(s, c) == s
  {
    if |s| > 0 {
      RemoveAllAbsent(s[1..], c);
    }
  }

  /** `strings.TrimLeft` with a set of cut characters. */
  function TrimLeft(s: string, cut: set<char>): (r: string)
    ensures |r| <= |s| && r == s[|s| - |r|..]
    ensures |r| > 0 ==> r[0] !in cut
    decreases |s|
  {
    if |s| > 0 && s[0] in cut then TrimLeft(s[1..], cut) else s
  }

  /** `strings.TrimRight` with a set of cut characters. */
  function TrimRight(s: string, cut: set<char>): (r: string)
    ensures |r| <= |s| && r == s[..|r|]
    ensures |r| > 0 ==> r[|r| - 1] !in cut
    decreases |s|
  {
    if |s| > 0 && s[|s| - 1] in cut then TrimRight(s[..|s| - 1], cut) else s
  }

  /** `strings.Trim(s, cutset)`: cut characters removed from both ends. */
  function Trim(s: string, cut: set<char>): string {
    TrimRight(TrimLeft(s, cut), cut)
  }

  /** No character of `s` is in `cut`. */
  predicate Avoids(s: string, cut: set<char>) {
    forall i :: 0 <= i < |s| ==> s[i] !in cut
  }

  lemma TrimAppendedCut(s: string, tail: string, cut: set<char>)
    requires |s| > 0 && s[0] !in cut && s[|s| - 1] !in cut
    requires forall i :: 0 <= i < |tail| ==> tail[i] in cut
    ensures Trim(s + tail, cut) == s
    decreases |tail|
  {
    assert TrimLeft(s + tail, cut) == s + tail;
    if |tail| > 0 {
      var t' := tail[..|tail| - 1];
      assert (s + tail)[..|s + tail| - 1] == s + t';
      TrimAppendedCut(s, t', cut);
      assert TrimLeft(s + t', cut) == s + t';
    } else {
      assert s + tail == s;
    }
  }

  /** `strings.Split(s, sep)` for a one-character separator; never empty. */
  function Split(s: string, sep: char): (parts: seq<string>)
    ensures |parts| >= 1
    ensures forall k :: 0 <= k < |parts| ==> sep !in parts[k]
  {
    if |s| == 0 then [""]
    else if s[0] == sep then [""] + Split(s[1..], sep)
    else
      var rest := Split(s[1..], sep);
      [[s[0]] + rest[0]] + rest[1..]
  }

  /** A leading non-separator character joins the first part. */
  lemma SplitLetter(s: string, sep: char)
    requires |s| > 0 && s[0] != sep
    ensures Split(s, sep)[0] == [s[0]] + Split(s[1..], sep)[0]
    ensures Split(s, sep)[1..] == Split(s[1..], sep)[1..]
  {
  }

  /** A string without the separator splits into itself alone. */
  lemma {:induction false} SplitAbsent(s: string, sep: char)
    requires sep !in s
    ensures Split(s, sep) == [s]
  {
    if |s| > 0 {
      SplitAbsent(s[1..], sep);
      assert s == [s[0]] + s[1..];
    }
  }

  /** A string ending in its only separator splits into the text before it and an empty part. */
  lemma {:induction false} SplitTrailing(s: string, sep: char)
    requires sep !in s
    ensures Split(s + [sep], sep) == [s, ""]
  {
    if |s| == 0 {
      assert [sep][1..] == "";
    } else {
      SplitTrailing(s[1..], sep);
      assert (s + [sep])[1..] == s[1..] + [sep];
      assert s == [s[0]] + s[1..];
    }
  }

  /**
   * The last part of a split is the text after the last separator: the
   * whole string when there is none, otherwise a suffix right after one.
   */
  lemma {:induction false} SplitLast(s: string, sep: char)
    ensures var parts := Split(s, sep);
            && (sep !in s ==> parts[|parts| - 1] == s)
            && (sep in s ==> |parts| >= 2 && HasSuffix(s, [sep] + parts[|parts| - 1]))
  {
    if sep !in s {
      SplitAbsent(s, sep);
    } else if s[0] == sep {
      var tail := s[1..];
      SplitLast(tail, sep);
      var last := Split(tail, sep)[|Split(tail, sep)| - 1];
      assert Split(s, sep)[|Split(s, sep)| - 1] == last;
      if sep in tail {
        assert s == [sep] + tail;
      } else {
        assert s == [sep] + last;
      }
    } else {
      var tail := s[1..];
      assert sep in tail by {
        var k :| 0 <= k < |s| && s[k] == sep;
        assert tail[k - 1] == sep;
      }
      SplitLast(tail, sep);
      SplitLetter(s, sep);
      var rest := Split(tail, sep);
      var last := rest[|rest| - 1];
      assert Split(s, sep)[|Split(s, sep)| - 1] == last;
      assert s[|s| - |last| - 1..] == tail[|tail| - |last| - 1..];
    }
  }

  /** Whatever precedes the last separator, the last part is what follows it. */
  lemma SplitLastOfAppend(a: string, x: string, sep: char)
    requires sep !in x
    ensures var parts := Split(a + [sep] + x, sep); parts[|parts| - 1] == x
  {
    var s := a + [sep] + x;
    assert s[|a|] == sep;
    SplitLast(s, sep);
    var parts := Split(s, sep);
    var last := parts[|parts| - 1];
    assert sep !in last;
    assert s[|s| - |last| - 1] == sep;
    assert s[|s| - |x|..] == x;
  }

  /** `strings.Join(parts, "")`. */
  function Concat(parts: seq<string>): string {
    if |parts| == 0 then "" else parts[0] + Concat(parts[1..])
  }
}

=== FILE: typemapper.dfy ===
/**
 * From one field descriptor to one model field: the TypeScript type, the
 * JSON wire type, the repeated/message flags, the map annotation and the
 * camel-cased member name.
 */
module TypeMapper {
  import opened Wrappers
  import opened Text
  import opened Descriptor
  import opened Models

  /** The one well-known type given a built-in conversion. */
  const TimestampTypeName: string := ".google.protobuf.Timestamp"

  /** The field types rendered as `number`. */
  predicate IsNumeric(t: FieldType) {
    t.TypeDouble? || t.TypeFixed32? || t.TypeFixed64? || t.TypeInt32? || t.TypeInt64?
  }

  /** Removes the `.pkg.` qualifier, then every remaining dot (`.pkg.Outer.Inner` becomes `OuterInner`). */
  function RemovePkg(s: string, pkg: string): (r: string)
    ensures '.' !in r
    ensures !HasPrefix(s, "." + pkg + ".") ==> r == RemoveAll(s, '.')
    ensures HasPrefix(s, "." + pkg + ".") ==> r == RemoveAll(s[|pkg| + 2..], '.')
  {
    RemoveAll(TrimPrefix(s, "." + pkg + "."), '.')
  }

  /** The (TypeScript type, JSON type) pair of a field, before repetition is applied. */
  function Types(f: FieldDescriptor, pkg: string): (r: (string, string))
    ensures IsNumeric(f.fieldType) ==> r == ("number", "number")
    ensures f.fieldType.TypeString? ==> r == ("string", "string")
    ensures f.fieldType.TypeBool? ==> r == ("boolean", "boolean")
    ensures f.fieldType.TypeMessage? && f.typeName == TimestampTypeName ==> r == ("Date", "string")
    ensures f.fieldType.TypeMessage? && f.typeName != TimestampTypeName ==>
              r.0 == RemovePkg(f.typeName, pkg) && r.1 == r.0 + "JSON"
    ensures !IsNumeric(f.fieldType) && !f.fieldType.TypeString? && !f.fieldType.TypeBool? && !f.fieldType.TypeMessage? ==>
              r == ("string", "string")
    ensures !f.fieldType.TypeMessage? ==> r.1 == r.0
    ensures '.' !in r.0
  {
    match f.fieldType
    case TypeDouble => ("number", "number")
    case TypeFixed32 => ("number", "number")
    case TypeFixed64 => ("number", "number")
    case TypeInt32 => ("number", "number")
    case TypeInt64 => ("number", "number")
    case TypeString => ("string", "string")
    case TypeBool => ("boolean", "boolean")
    case TypeMessage =>
      if f.typeName == TimestampTypeName then ("Date", "string")
      else (RemovePkg(f.typeName, pkg), RemovePkg(f.typeName, pkg) + "JSON")
    case _ => ("string", "string")
  }

  predicate IsRepeated(f: FieldDescriptor) {
    f.fieldLabel == LabelRepeated
  }

  /** `Types`, with `[]` appended to both halves for a repeated field. */
  function ProtoToTSType(f: FieldDescriptor, pkg: string): (r: (string, string))
    ensures IsRepeated(f) ==> r == (Types(f, pkg).0 + "[]", Types(f, pkg).1 + "[]")
    ensures !IsRepeated(f) ==> r == Types(f, pkg)
  {
    var (ts, json) := Types(f, pkg);
    if IsRepeated(f) then (ts + "[]", json + "[]") else (ts, json)
  }

  /** Upper-cases the first character and lower-cases the rest; an empty part stays empty. */
  function Capitalize(p: string): string {
    if |p| == 0 then "" else [UpperChar(p[0])] + Lower(p[1..])
  }

  function CapitalizeAll(parts: seq<string>): string {
    if |parts| == 0 then "" else Capitalize(parts[0]) + CapitalizeAll(parts[1..])
  }

  /**
   * snake_case to lowerCamelCase: split at `_`, lower-case the first part,
   * capitalize the others, and concatenate.
   */
  function CamelCase(s: string): string {
    var parts := Split(s, '_');
    Lower(parts[0]) + CapitalizeAll(parts[1..])
  }

  /**
   * A one-pass description of camel-casing: underscores are dropped, the
   * letter after an underscore is upper-cased and every other letter is
   * lower-cased. `afterUnderscore` says whether an underscore was just seen.
   */
  function CamelScan(s: string, afterUnderscore: bool): string {
    if |s| == 0 then ""
    else if s[0] == '_' then CamelScan(s[1..], true)
    else [if afterUnderscore then UpperChar(s[0]) else LowerChar(s[0])] + CamelScan(s[1..], false)
  }

  lemma {:induction false} CamelScanSplit(s: string, afterUnderscore: bool)
    ensures var parts := Split(s, '_');
            CamelScan(s, afterUnderscore) ==
              (if afterUnderscore then Capitalize(parts[0]) else Lower(parts[0])) + CapitalizeAll(parts[1..])
  {
    if |s| == 0 {
    } else if s[0] == '_' {
      var rest := Split(s[1..], '_');
      assert Split(s, '_') == [""] + rest;
      assert Split(s, '_')[1..] == rest;
      CamelScanSplit(s[1..], true);
    } else {
      CamelScanSplit(s[1..], false);
      CamelScanLetter(s, afterUnderscore);
    }
  }

  /** The letter step of `CamelScanSplit`: a letter joins the first part of the split. */
  lemma CamelScanLetter(s: string, afterUnderscore: bool)
    requires |s| > 0 && s[0] != '_'
    requires var rest := Split(s[1..], '_');
             CamelScan(s[1..], false) == Lower(rest[0]) + CapitalizeAll(rest[1..])
    ensures var parts := Split(s, '_');
            CamelScan(s, afterUnderscore) ==
              (if afterUnderscore then Capitalize(parts[0]) else Lower(parts[0])) + CapitalizeAll(parts[1..])
  {
    var rest := Split(s[1..], '_');
    var parts := Split(s, '_');
    SplitLetter(s, '_');
    var c := if afterUnderscore then UpperChar(s[0]) else LowerChar(s[0]);
    var first := if afterUnderscore then Capitalize(parts[0]) else Lower(parts[0]);
    FirstPartCased(parts[0], s[0], rest[0], afterUnderscore);
    assert CamelScan(s, afterUnderscore) == [c] + CamelScan(s[1..], false);
    Regroup([c], Lower(rest[0]), CapitalizeAll(rest[1..]));
  }

  lemma Regroup(a: string, b: string, c: string)
    ensures a + (b + c) == (a + b) + c
  {
  }

  lemma FirstPartCased(head: string, x: char, tail: string, afterUnderscore: bool)
    requires head == [x] + tail
    ensures (if afterUnderscore then Capitalize(head) else Lower(head)) ==
              [if afterUnderscore then UpperChar(x) else LowerChar(x)] + Lower(tail)
  {
    if afterUnderscore {
      CapitalizeHead(head, x, tail);
    } else {
      LowerAppend([x], tail);
      assert Lower([x]) == [LowerChar(x)];
    }
  }

  lemma CapitalizeHead(head: string, c: char, tail: string)
    requires head == [c] + tail
    ensures Capitalize(head) == [UpperChar(c)] + Lower(tail)
  {
    assert head[1..] == tail;
  }

  /** What the scan produces: no underscores, and the input's letters in order up to case. */
  lemma {:induction false} CamelScanShape(s: string, afterUnderscore: bool)
    ensures '_' !in CamelScan(s, afterUnderscore)
    ensures Lower(CamelScan(s, afterUnderscore)) == Lower(RemoveAll(s, '_'))
  {
    if |s| > 0 {
      CamelScanShape(s[1..], s[0] == '_');
      if s[0] != '_' {
        var c := if afterUnderscore then UpperChar(s[0]) else LowerChar(s[0]);
        LowerAppend([c], CamelScan(s[1..], false));
        LowerAppend([s[0]], RemoveAll(s[1..], '_'));
      }
    }
  }

  /**
   * The split-and-join camel-casing equals the one-pass description; so the
   * member name has no underscores and differs from the field name only in
   * case and in the underscores removed.
   */
  lemma CamelCaseMatchesScan(s: string)
    ensures CamelCase(s) == CamelScan(s, false)
    ensures '_' !in CamelCase(s)
    ensures Lower(CamelCase(s)) == Lower(RemoveAll(s, '_'))
  {
    CamelScanSplit(s, false);
    CamelScanShape(s, false);
  }

  /** The source's capitalization of one part, which slices `p[0:1]` and so fails on an empty part. */
  function CapitalizeAsWritten(p: string): Option<string> {
    if |p| == 0 then None else Some([UpperChar(p[0])] + Lower(p[1..]))
  }

  function CapitalizeAllAsWritten(parts: seq<string>): Option<string> {
    if |parts| == 0 then Some("")
    else match CapitalizeAsWritten(parts[0])
      case None => None
      case Some(head) =>
        match CapitalizeAllAsWritten(parts[1..])
        case None => None
        case Some(tail) => Some(head + tail)
  }

  /** camelCase as the source writes it; `None` where the slice of an empty part panics. */
  function CamelCaseAsWritten(s: string): Option<string> {
    var parts := Split(s, '_');
    match CapitalizeAllAsWritten(parts[1..])
    case None => None
    case Some(tail) => Some(Lower(parts[0]) + tail)
  }

  /** A trailing underscore leaves an empty last part, on which the source panics. */
  lemma CamelCaseTrailingUnderscore()
    ensures CamelCaseAsWritten("page_") == None
    ensures CamelCase("page_") == "page"
  {
    SplitTrailing("page", '_');
    assert "page" + ['_'] == "page_";
    assert Split("page_", '_')[1..] == [""];
    assert Lower("page") == "page";
  }

  /** Wherever the source does not panic it agrees with `CamelCase`. */
  lemma {:induction false} CamelCaseAsWrittenAgrees(s: string)
    ensures CamelCaseAsWritten(s).Some? ==> CamelCaseAsWritten(s).value == CamelCase(s)
  {
    CapitalizeAllAgrees(Split(s, '_')[1..]);
  }

  lemma {:induction false} CapitalizeAllAgrees(parts: seq<string>)
    ensures CapitalizeAllAsWritten(parts).Some? ==> CapitalizeAllAsWritten(parts).value == CapitalizeAll(parts)
  {
    if |parts| > 0 {
      CapitalizeAllAgrees(parts[1..]);
    }
  }

  /** The text after the last dot of a (qualified) type name. */
  function LastSegment(typeName: string): (r: string)
    ensures '.' !in r
    ensures '.' !in typeName ==> r == typeName
    ensures '.' in typeName ==> HasSuffix(typeName, "." + r)
  {
    var splits := Split(typeName, '.');
    SplitLast(typeName, '.');
    splits[|splits| - 1]
  }

  predicate IsMapEntryNamed(n: MessageDescriptor, simpleName: string) {
    n.name == simpleName && n.mapEntry
  }

  /** The first nested message with that name whose `map_entry` option is set. */
  function FindMapEntry(nested: seq<MessageDescriptor>, simpleName: string): (r: Option<MessageDescriptor>)
    ensures r.None? <==> forall k :: 0 <= k < |nested| ==> !IsMapEntryNamed(nested[k], simpleName)
    ensures r.Some? ==> exists k :: 0 <= k < |nested| && nested[k] == r.value && IsMapEntryNamed(r.value, simpleName)
                                  && forall j :: 0 <= j < k ==> !IsMapEntryNamed(nested[j], simpleName)
  {
    if |nested| == 0 then None
    else if IsMapEntryNamed(nested[0], simpleName) then Some(nested[0])
    else
      var r := FindMapEntry(nested[1..], simpleName);
      if r.Some? then
        ghost var k :| 0 <= k < |nested[1..]| && nested[1..][k] == r.value && IsMapEntryNamed(r.value, simpleName)
                     && forall j :: 0 <= j < k ==> !IsMapEntryNamed(nested[1..][j], simpleName);
        assert nested[k + 1] == r.value;
        r
      else r
  }

  /** The last field carrying that name (later fields overwrite earlier ones in the source's loops). */
  function LastNamed(fields: seq<FieldDescriptor>, name: string): (r: Option<FieldDescriptor>)
    ensures r.None? <==> forall k :: 0 <= k < |fields| ==> fields[k].name != name
    ensures r.Some? ==> exists k :: 0 <= k < |fields| && fields[k] == r.value && r.value.name == name
                                  && forall j :: k < j < |fields| ==> fields[j].name != name
  {
    if |fields| == 0 then None
    else if fields[|fields| - 1].name == name then Some(fields[|fields| - 1])
    else
      var front := fields[..|fields| - 1];
      var r := LastNamed(front, name);
      if r.Some? then
        ghost var k :| 0 <= k < |front| && front[k] == r.value && r.value.name == name
                     && forall j :: k < j < |front| ==> front[j].name != name;
        assert fields[k] == r.value;
        r
      else r
  }

  /** The TypeScript type of an entry's `key` or `value` field, "" when the field is absent. */
  function EntryType(entry: MessageDescriptor, fieldName: string, pkg: string): string {
    match LastNamed(entry.fields, fieldName)
    case None => ""
    case Some(e) => Types(e, pkg).0
  }

  /**
   * `Map<K,V>` when the field's type is a map entry nested in the enclosing
   * message `parent`; nothing for scalars and ordinary message fields.
   */
  function MapType(f: FieldDescriptor, parent: MessageDescriptor, pkg: string): (r: Option<string>)
    ensures r.Some? <==> f.typeName != "" && exists k :: 0 <= k < |parent.nested| && IsMapEntryNamed(parent.nested[k], LastSegment(f.typeName))
    ensures r.Some? ==> exists n :: n in parent.nested && n.name == LastSegment(f.typeName) && n.mapEntry &&
                          r.value == "Map<" + EntryType(n, "key", pkg) + "," + EntryType(n, "value", pkg) + ">"
  {
    if f.typeName == "" then None
    else
      match FindMapEntry(parent.nested, LastSegment(f.typeName))
      case None => None
      case Some(n) => Some("Map<" + EntryType(n, "key", pkg) + "," + EntryType(n, "value", pkg) + ">")
  }

  /** The model field for field descriptor `f` declared in message `parent`. */
  function NewField(f: FieldDescriptor, parent: MessageDescriptor, pkg: string): ModelField {
    var (ts, json) := ProtoToTSType(f, pkg);
    ModelField(
      name := CamelCase(f.name),
      tsType := ts,
      jsonName := f.name,
      jsonType := json,
      isMessage := f.fieldType.TypeMessage?,
      isRepeated := IsRepeated(f),
      mapType := MapType(f, parent, pkg))
  }

  /** Does not begin or end with a bracket (true of every protobuf identifier). */
  predicate BracketFree(s: string) {
    |s| > 0 && s[0] !in {'[', ']'} && s[|s| - 1] !in {'[', ']'}
  }

  /** The member name is the field name camel-cased: no underscores, same letters up to case. */
  lemma NewFieldNames(f: FieldDescriptor, parent: MessageDescriptor, pkg: string)
    ensures var r := NewField(f, parent, pkg);
            && r.jsonName == f.name
            && '_' !in r.name
            && Lower(r.name) == Lower(RemoveAll(f.name, '_'))
  {
    CamelCaseMatchesScan(f.name);
  }

  /**
   * Both halves of `ProtoToTSType` are array types exactly when the field
   * is repeated, and trimming the brackets gives back the element types.
   */
  lemma ProtoToTSTypeArrays(f: FieldDescriptor, pkg: string)
    requires BracketFree(Types(f, pkg).0)
    ensures var r := ProtoToTSType(f, pkg);
            && (IsRepeated(f) <==> HasSuffix(r.0, "[]"))
            && (IsRepeated(f) <==> HasSuffix(r.1, "[]"))
            && Trim(r.0, {'[', ']'}) == Types(f, pkg).0
            && Trim(r.1, {'[', ']'}) == Types(f, pkg).1
  {
    var (t, j) := Types(f, pkg);
    JsonTypeNotArray(f, pkg);
    ArraySuffix(t, IsRepeated(f));
    ArraySuffix(j, IsRepeated(f));
  }

  /** `x`, with `[]` appended when `brackets`: an array type iff `brackets`, and `x` again once trimmed. */
  lemma ArraySuffix(x: string, brackets: bool)
    requires BracketFree(x)
    ensures var y := if brackets then x + "[]" else x;
            && (brackets <==> HasSuffix(y, "[]"))
            && Trim(y, {'[', ']'}) == x
  {
    if brackets {
      TrimAppendedCut(x, "[]", {'[', ']'});
      assert (x + "[]")[|x|..] == "[]";
    } else {
      TrimAppendedCut(x, "", {'[', ']'});
      assert x + "" == x;
    }
  }

  /**
   * A field's TypeScript and JSON types are array types exactly when the
   * field is repeated, and trimming the brackets gives back the element type.
   */
  lemma NewFieldArrayTypes(f: FieldDescriptor, parent: MessageDescriptor, pkg: string)
    requires BracketFree(Types(f, pkg).0)
    ensures var r := NewField(f, parent, pkg);
            && (r.isRepeated <==> HasSuffix(r.tsType, "[]"))
            && (r.isRepeated <==> HasSuffix(r.jsonType, "[]"))
            && Trim(r.tsType, {'[', ']'}) == Types(f, pkg).0
  {
    ProtoToTSTypeArrays(f, pkg);
  }

  lemma JsonTypeNotArray(f: FieldDescriptor, pkg: string)
    requires BracketFree(Types(f, pkg).0)
    ensures !HasSuffix(Types(f, pkg).1, "[]")
    ensures BracketFree(Types(f, pkg).1)
  {
    var (t, j) := Types(f, pkg);
    if f.fieldType.TypeMessage? && f.typeName != TimestampTypeName {
      assert j == t + "JSON";
      assert j[0] == t[0];
      assert j[|j| - 1] == 'N';
    } else if f.fieldType.TypeMessage? {
      assert j == "string";
    } else {
      assert j == t;
    }
  }

  /** The JSON type mirrors the TypeScript type; generated message shapes get the `JSON` suffix. */
  lemma NewFieldJsonMirrors(f: FieldDescriptor, parent: MessageDescriptor, pkg: string)
    ensures var r := NewField(f, parent, pkg);
            && (!r.isMessage ==> r.jsonType == r.tsType)
            && (r.isMessage && f.typeName != TimestampTypeName ==>
                  r.jsonType == Types(f, pkg).0 + "JSON" + (if r.isRepeated then "[]" else ""))
            && (r.isMessage && f.typeName == TimestampTypeName ==>
                  r.tsType == "Date" + (if r.isRepeated then "[]" else "") &&
                  r.jsonType == "string" + (if r.isRepeated then "[]" else ""))
  {
  }
}

=== FILE: walker.dfy ===
/**
 * The schema walker: registers one model per message, nested messages
 * included, in pre-order, with namespace-flattened names.
 */
module Walker {
  import opened Wrappers
  import opened Text
  import opened Descriptor
  import opened Models
  import opened TypeMapper

  /** Some field of `m` is literally named `name`. */
  predicate HasFieldNamed(m: MessageDescriptor, name: string) {
    exists k :: 0 <= k < |m.fields| && m.fields[k].name == name
  }

  /** A map-entry message needs a `key` and a `value` field. */
  predicate EntryComplete(m: MessageDescriptor) {
    m.mapEntry ==> HasFieldNamed(m, "key") && HasFieldNamed(m, "value")
  }

  /** Every message in the tree rooted at `m` is `EntryComplete`. */
  predicate TreeComplete(m: MessageDescriptor) {
    EntryComplete(m) && ForestComplete(m.nested)
  }

  predicate ForestComplete(ms: seq<MessageDescriptor>) {
    forall k :: 0 <= k < |ms| ==> TreeComplete(ms[k])
  }

  /**
   * `e` is the error of the first message of the tree rooted at `m`, in
   * registration order, that lacks its `key` or `value` field.
   */
  ghost predicate FirstIncomplete(m: MessageDescriptor, prefix: string, e: GenError)
    decreases m, 1
  {
    if !EntryComplete(m) then e == MissingMapField(ModelName(prefix, m), if HasFieldNamed(m, "key") then "value" else "key")
    else FirstIncompleteIn(m.nested, prefix + "." + m.name, e)
  }

  /** `e` is the error of the first tree of `ms` that holds an incomplete map entry. */
  ghost predicate FirstIncompleteIn(ms: seq<MessageDescriptor>, prefix: string, e: GenError)
    decreases ms, 0
  {
    exists k :: 0 <= k < |ms| && ForestComplete(ms[..k]) && FirstIncomplete(ms[k], prefix, e)
  }

  /** Number of messages in the tree rooted at `m`. */
  function TreeSize(m: MessageDescriptor): nat {
    1 + ForestSize(m.nested)
  }

  function ForestSize(ms: seq<MessageDescriptor>): nat {
    if |ms| == 0 then 0 else TreeSize(ms[0]) + ForestSize(ms[1..])
  }

  /** The name a message gets: the enclosing names with their dots removed, then its own. */
  function ModelName(prefix: string, m: MessageDescriptor): string {
    RemoveAll(prefix, '.') + m.name
  }

  /** `f` is built from the last field of `fields` called `name`. */
  ghost predicate IsLastNamed(fields: seq<FieldDescriptor>, name: string, f: ModelField, m: MessageDescriptor, pkg: string) {
    exists k :: 0 <= k < |fields| && fields[k].name == name && f == NewField(fields[k], m, pkg)
                && forall j :: k < j < |fields| ==> fields[j].name != name
  }

  lemma EntryFieldBuilt(m: MessageDescriptor, pkg: string, name: string, fields: seq<ModelField>)
    requires LastNamed(m.fields, name).Some?
    requires |fields| == |m.fields| && forall k :: 0 <= k < |m.fields| ==> fields[k] == NewField(m.fields[k], m, pkg)
    ensures NewField(LastNamed(m.fields, name).value, m, pkg) in fields
    ensures NewField(LastNamed(m.fields, name).value, m, pkg).jsonName == name
    ensures IsLastNamed(m.fields, name, NewField(LastNamed(m.fields, name).value, m, pkg), m, pkg)
  {
    var f := LastNamed(m.fields, name).value;
    var i :| 0 <= i < |m.fields| && m.fields[i] == f && f.name == name
             && forall j :: i < j < |m.fields| ==> m.fields[j].name != name;
    assert fields[i] == NewField(f, m, pkg);
  }

  /**
   * The unflagged model for message `m` under `prefix`. A map entry gets
   * `MapDetails` built from its last fields named `key` and `value`; a
   * missing one is the source's nil dereference.
   */
  function BuildModel(m: MessageDescriptor, prefix: string, pkg: string): (r: Result<Model, GenError>)
    ensures r.Success? <==> EntryComplete(m)
    ensures r.Failure? ==>
              r.error == MissingMapField(ModelName(prefix, m), if HasFieldNamed(m, "key") then "value" else "key")
    ensures r.Success? ==>
              && r.value.name == ModelName(prefix, m)
              && |r.value.fields| == |m.fields|
              && (forall k :: 0 <= k < |m.fields| ==> r.value.fields[k] == NewField(m.fields[k], m, pkg))
              && !r.value.primitive && !r.value.canMarshal && !r.value.canUnmarshal
              && (r.value.mapDetails.Some? <==> m.mapEntry)
    ensures r.Success? && r.value.mapDetails.Some? ==>
              var d := r.value.mapDetails.value;
              && (HasSuffix(r.value.name, "Entry") ==> d.name + "Entry" == r.value.name)
              && (!HasSuffix(r.value.name, "Entry") ==> d.name == r.value.name)
              && d.keyField in r.value.fields && d.keyField.jsonName == "key"
              && d.valueField in r.value.fields && d.valueField.jsonName == "value"
    ensures r.Success? && r.value.mapDetails.Some? ==>
              && IsLastNamed(m.fields, "key", r.value.mapDetails.value.keyField, m, pkg)
              && IsLastNamed(m.fields, "value", r.value.mapDetails.value.valueField, m, pkg)
  {
    var name := ModelName(prefix, m);
    var fields := seq(|m.fields|, k requires 0 <= k < |m.fields| => NewField(m.fields[k], m, pkg));
    if !m.mapEntry then
      Success(Model(name, false, fields, None, false, false))
    else
      var details :- EntryDetails(m, name, pkg, fields);
      Success(Model(name, false, fields, Some(details), false, false))
  }

  /** The map details of entry model `name`, or the missing field. */
  function EntryDetails(m: MessageDescriptor, name: string, pkg: string, fields: seq<ModelField>): (r: Result<MapDetails, GenError>)
    requires |fields| == |m.fields| && forall k :: 0 <= k < |m.fields| ==> fields[k] == NewField(m.fields[k], m, pkg)
    ensures r.Success? <==> HasFieldNamed(m, "key") && HasFieldNamed(m, "value")
    ensures r.Failure? ==> r.error == MissingMapField(name, if HasFieldNamed(m, "key") then "value" else "key")
    ensures r.Success? ==>
              && (HasSuffix(name, "Entry") ==> r.value.name + "Entry" == name)
              && (!HasSuffix(name, "Entry") ==> r.value.name == name)
              && r.value.keyField in fields && r.value.keyField.jsonName == "key"
              && r.value.valueField in fields && r.value.valueField.jsonName == "value"
              && IsLastNamed(m.fields, "key", r.value.keyField, m, pkg)
              && IsLastNamed(m.fields, "value", r.value.valueField, m, pkg)
  {
    match (LastNamed(m.fields, "key"), LastNamed(m.fields, "value"))
    case (Some(key), Some(value)) =>
      EntryFieldBuilt(m, pkg, "key", fields);
      EntryFieldBuilt(m, pkg, "value", fields);
      Success(MapDetails(TrimSuffix(name, "Entry"), NewField(key, m, pkg), NewField(value, m, pkg)))
    case (None, _) => Failure(MissingMapField(name, "key"))
    case (_, None) => Failure(MissingMapField(name, "value"))
  }

  /**
   * The reference order of registration: the message's own model first,
   * then the models of its nested messages, each subtree in turn.
   */
  function Preorder(m: MessageDescriptor, prefix: string, pkg: string): (r: seq<Model>)
    requires TreeComplete(m)
    ensures forall i :: 0 <= i < |r| ==> !r[i].primitive && !r[i].canMarshal && !r[i].canUnmarshal
    decreases m, 1
  {
    [BuildModel(m, prefix, pkg).value] + PreorderAll(m.nested, prefix + "." + m.name, pkg)
  }

  function PreorderAll(ms: seq<MessageDescriptor>, prefix: string, pkg: string): (r: seq<Model>)
    requires ForestComplete(ms)
    ensures forall i :: 0 <= i < |r| ==> !r[i].primitive && !r[i].canMarshal && !r[i].canUnmarshal
    decreases ms, 0
  {
    if |ms| == 0 then [] else Preorder(ms[0], prefix, pkg) + PreorderAll(ms[1..], prefix, pkg)
  }

  /**
   * `addMessageType`: registers `m` under `prefix`, then walks its nested
   * messages with the prefix extended by `.` and its name.
   */
  function AddMessageType(reg: Registry, m: MessageDescriptor, prefix: string, pkg: string): (r: Result<Registry, GenError>)
    requires WellFormed(reg)
    ensures r.Success? <==> TreeComplete(m)
    ensures r.Failure? ==> FirstIncomplete(m, prefix, r.error)
    ensures r.Success? ==>
              && WellFormed(r.value)
              && |r.value.models| == |reg.models| + TreeSize(m)
              && r.value.models[..|reg.models|] == reg.models
              && r.value.models[|reg.models|..] == Preorder(m, prefix, pkg)
    decreases m, 1
  {
    match BuildModel(m, prefix, pkg)
    case Failure(e) => Failure(e)
    case Success(model) =>
      var reg' := AddModel(reg, model);
      var r := AddMessages(reg', m.nested, prefix + "." + m.name, pkg);
      if r.Success? then
        PreorderSplit(reg, reg', r.value, model, Preorder(m, prefix, pkg), PreorderAll(m.nested, prefix + "." + m.name, pkg));
        r
      else r
  }

  /** The bookkeeping step of `AddMessageType`: one model appended, then a block of models. */
  lemma PreorderSplit(reg: Registry, reg': Registry, last: Registry, model: Model, whole: seq<Model>, rest: seq<Model>)
    requires |reg'.models| == |reg.models| + 1 && reg'.models[..|reg.models|] == reg.models
    requires reg'.models[|reg.models|] == model
    requires |last.models| >= |reg'.models| && last.models[..|reg'.models|] == reg'.models
    requires last.models[|reg'.models|..] == rest
    requires whole == [model] + rest
    ensures last.models[..|reg.models|] == reg.models
    ensures last.models[|reg.models|..] == whole
  {
    assert last.models[..|reg.models|] == reg'.models[..|reg.models|];
    assert last.models[|reg.models|..] == [last.models[|reg.models|]] + last.models[|reg'.models|..];
  }

  /** `addMessageType` applied to each message of `ms` in order. */
  function AddMessages(reg: Registry, ms: seq<MessageDescriptor>, prefix: string, pkg: string): (r: Result<Registry, GenError>)
    requires WellFormed(reg)
    ensures r.Success? <==> ForestComplete(ms)
    ensures r.Failure? ==> FirstIncompleteIn(ms, prefix, r.error)
    ensures r.Success? ==>
              && WellFormed(r.value)
              && |r.value.models| == |reg.models| + ForestSize(ms)
              && r.value.models[..|reg.models|] == reg.models
              && r.value.models[|reg.models|..] == PreorderAll(ms, prefix, pkg)
    decreases ms, 0
  {
    if |ms| == 0 then Success(reg)
    else
      match AddMessageType(reg, ms[0], prefix, pkg)
      case Failure(e) =>
        assert ForestComplete(ms[..0]) && FirstIncomplete(ms[0], prefix, e);
        Failure(e)
      case Success(reg') =>
        var r := AddMessages(reg', ms[1..], prefix, pkg);
        ForestCompleteCons(ms);
        if r.Success? then
          BlocksSplit(reg.models, reg'.models, r.value.models,
                      Preorder(ms[0], prefix, pkg), PreorderAll(ms[1..], prefix, pkg));
          r
        else
          FirstIncompleteCons(ms, prefix, r.error);
          r
  }

  /** A complete first tree moves the first incomplete one a place further along. */
  lemma FirstIncompleteCons(ms: seq<MessageDescriptor>, prefix: string, e: GenError)
    requires |ms| > 0 && TreeComplete(ms[0]) && FirstIncompleteIn(ms[1..], prefix, e)
    ensures FirstIncompleteIn(ms, prefix, e)
  {
    var k :| 0 <= k < |ms[1..]| && ForestComplete(ms[1..][..k]) && FirstIncomplete(ms[1..][k], prefix, e);
    var pre := ms[..k + 1];
    forall j | 0 <= j < |pre| ensures TreeComplete(pre[j]) {
      if j > 0 {
        assert pre[j] == ms[1..][..k][j - 1];
      }
    }
    assert ms[k + 1] == ms[1..][k];
  }

  lemma ForestCompleteCons(ms: seq<MessageDescriptor>)
    requires |ms| > 0
    ensures ForestComplete(ms) <==> TreeComplete(ms[0]) && ForestComplete(ms[1..])
  {
    if TreeComplete(ms[0]) && ForestComplete(ms[1..]) {
      forall k | 0 <= k < |ms|
        ensures TreeComplete(ms[k])
      {
        if k > 0 {
          assert ms[k] == ms[1..][k - 1];
        }
      }
    }
  }

  /** Two blocks appended one after the other form their concatenation. */
  lemma BlocksSplit(a: seq<Model>, b: seq<Model>, c: seq<Model>, first: seq<Model>, second: seq<Model>)
    requires |b| >= |a| && b[..|a|] == a && b[|a|..] == first
    requires |c| >= |b| && c[..|b|] == b && c[|b|..] == second
    ensures c[..|a|] == a
    ensures c[|a|..] == first + second
  {
    assert c[..|a|] == b[..|a|];
    assert c[|a|..] == c[|a|..|b|] + c[|b|..];
    assert c[|a|..|b|] == b[|a|..];
  }

  /** A protobuf identifier as far as naming goes: non-empty and without dots. */
  predicate Identifier(s: string) {
    |s| > 0 && '.' !in s
  }

  /** The prefix the walker passes for the enclosing names `path`: `.A.B` for `[A, B]`. */
  function PathPrefix(path: seq<string>): string {
    if |path| == 0 then "" else PathPrefix(path[..|path| - 1]) + "." + path[|path| - 1]
  }

  /** `.pkg`, or nothing for a file without a package. */
  function PackageLead(pkg: string): string {
    if pkg == "" then "" else "." + pkg
  }

  /** The fully qualified name the schema uses for message `name` nested in `path` of package `pkg`. */
  function QualifiedName(pkg: string, path: seq<string>, name: string): string {
    PackageLead(pkg) + (PathPrefix(path) + "." + name)
  }

  lemma {:induction false} ConcatAppend(ps: seq<string>, x: string)
    ensures Concat(ps + [x]) == Concat(ps) + x
  {
    if |ps| == 0 {
      assert ps + [x] == [x];
    } else {
      assert (ps + [x])[1..] == ps[1..] + [x];
      ConcatAppend(ps[1..], x);
    }
  }

  lemma RemoveDotsAroundName(p: string, x: string)
    requires '.' !in x
    ensures RemoveAll(p + "." + x, '.') == RemoveAll(p, '.') + x
  {
    var a := p + ".";
    assert RemoveAll(a, '.') == RemoveAll(p, '.') by {
      RemoveAllAppend(p, ".", '.');
      assert RemoveAll(".", '.') == "";
    }
    assert RemoveAll(a + x, '.') == RemoveAll(p, '.') + x by {
      RemoveAllAppend(a, x, '.');
      RemoveAllAbsent(x, '.');
    }
  }

  /** Removing the dots from the walker's prefix leaves the enclosing names run together. */
  lemma {:induction false} FlattenedPrefix(path: seq<string>)
    requires forall k :: 0 <= k < |path| ==> '.' !in path[k]
    ensures RemoveAll(PathPrefix(path), '.') == Concat(path)
  {
    if |path| > 0 {
      var front := path[..|path| - 1];
      var x := path[|path| - 1];
      assert forall k :: 0 <= k < |front| ==> front[k] == path[k];
      FlattenedPrefix(front);
      assert PathPrefix(path) == PathPrefix(front) + "." + x;
      RemoveDotsAroundName(PathPrefix(front), x);
      ConcatAppend(front, x);
      assert front + [x] == path;
    }
  }

  /** A message nested in `path` is registered under the enclosing names followed by its own. */
  lemma FlattenedName(path: seq<string>, m: MessageDescriptor)
    requires forall k :: 0 <= k < |path| ==> '.' !in path[k]
    ensures ModelName(PathPrefix(path), m) == Concat(path) + m.name
  {
    FlattenedPrefix(path);
  }

  lemma {:induction false} PathPrefixStart(path: seq<string>)
    requires |path| > 0 && Identifier(path[0])
    ensures |PathPrefix(path)| >= 2 && PathPrefix(path)[0] == '.' && PathPrefix(path)[1] == path[0][0]
  {
    if |path| > 1 {
      var front := path[..|path| - 1];
      assert front[0] == path[0];
      PathPrefixStart(front);
    } else {
      assert PathPrefix(path[..0]) == "";
    }
  }

  /**
   * The type name a field references and the name its message is registered
   * under agree: stripping the package from the qualified name gives the
   * walker's flattened name, with or without a package.
   */
  lemma TypeNameMatchesRegisteredName(pkg: string, path: seq<string>, m: MessageDescriptor)
    requires forall k :: 0 <= k < |path| ==> Identifier(path[k])
    requires Identifier(m.name)
    ensures RemovePkg(QualifiedName(pkg, path, m.name), pkg) == ModelName(PathPrefix(path), m)
  {
    var p := PathPrefix(path);
    var tail := p + "." + m.name;
    QualifiedTail(path, m.name);
    RemovePkgOfTail(pkg, tail);
    RemoveDotsAroundName(p, m.name);
  }

  /** The simple name `mapType` takes from a qualified type name is the message's own name. */
  lemma QualifiedLastSegment(pkg: string, path: seq<string>, name: string)
    requires Identifier(name)
    ensures LastSegment(QualifiedName(pkg, path, name)) == name
  {
    var a := PackageLead(pkg) + PathPrefix(path);
    assert QualifiedName(pkg, path, name) == a + ['.'] + name;
    SplitLastOfAppend(a, name, '.');
  }

  /**
   * A field whose type is the qualified name of a map entry nested in its
   * message, as protoc writes it, gets a `Map<K,V>` type.
   */
  lemma MapFieldFindsEntry(f: FieldDescriptor, parent: MessageDescriptor, pkg: string, path: seq<string>, k: nat)
    requires k < |parent.nested| && parent.nested[k].mapEntry && Identifier(parent.nested[k].name)
    requires f.typeName == QualifiedName(pkg, path, parent.nested[k].name)
    ensures MapType(f, parent, pkg).Some?
  {
    QualifiedLastSegment(pkg, path, parent.nested[k].name);
    assert IsMapEntryNamed(parent.nested[k], LastSegment(f.typeName));
  }

  /** Stripping the package from `.pkg` (or nothing) followed by `.Name...` leaves the dot-free rest. */
  lemma RemovePkgOfTail(pkg: string, tail: string)
    requires |tail| >= 2 && tail[0] == '.' && tail[1] != '.'
    ensures RemovePkg(PackageLead(pkg) + tail, pkg) == RemoveAll(tail, '.')
  {
    if pkg == "" {
      assert "" + tail == tail;
      NoDoubleDotPrefix(tail);
    } else {
      PackagePrefixStripped(pkg, tail);
    }
  }

  /** The part of a qualified name after the package starts with a dot and then an identifier. */
  lemma QualifiedTail(path: seq<string>, name: string)
    requires forall k :: 0 <= k < |path| ==> Identifier(path[k])
    requires Identifier(name)
    ensures var tail := PathPrefix(path) + "." + name;
            |tail| >= 2 && tail[0] == '.' && tail[1] != '.'
  {
    var p := PathPrefix(path);
    if |path| > 0 {
      assert Identifier(path[0]);
      PathPrefixStart(path);
      assert path[0][0] in path[0];
    } else {
      assert name[0] in name;
    }
  }

  lemma NoDoubleDotPrefix(tail: string)
    requires |tail| >= 2 && tail[1] != '.'
    ensures RemovePkg(tail, "") == RemoveAll(tail, '.')
  {
    assert "." + "" + "." == "..";
    assert !HasPrefix(tail, "..");
  }

  lemma PackagePrefixStripped(pkg: string, tail: string)
    requires |tail| >= 1 && tail[0] == '.'
    ensures RemovePkg("." + pkg + tail, pkg) == RemoveAll(tail, '.')
  {
    var s := "." + pkg + tail;
    var q := "." + pkg + ".";
    assert s[..|q|] == q;
    assert s[|q|..] == tail[1..];
    assert RemoveAll(tail, '.') == RemoveAll(tail[1..], '.');
  }

  /** A message with a single nested message: its model, then the nested message's models. */
  lemma PreorderOfChain(m: MessageDescriptor, prefix: string, pkg: string)
    requires TreeComplete(m) && |m.nested| == 1
    ensures TreeComplete(m.nested[0])
    ensures Preorder(m, prefix, pkg) == [BuildModel(m, prefix, pkg).value] + Preorder(m.nested[0], prefix + "." + m.name, pkg)
  {
    ForestCompleteCons(m.nested);
    assert m.nested[1..] == [];
    var p := prefix + "." + m.name;
    assert PreorderAll(m.nested, p, pkg) == Preorder(m.nested[0], p, pkg) + [];
  }

  lemma TwoLevelPrefixes(a: string, b: string)
    requires '.' !in a && '.' !in b
    ensures RemoveAll("" + "." + a, '.') == a
    ensures RemoveAll("" + "." + a + "." + b, '.') == a + b
  {
    assert PathPrefix([a]) == "" + "." + a by {
      assert [a][..0] == [];
    }
    assert PathPrefix([a, b]) == "" + "." + a + "." + b by {
      assert [a, b][..1] == [a];
    }
    FlattenedPrefix([a]);
    FlattenedPrefix([a, b]);
    assert Concat([a]) == a + "";
    assert Concat([a, b]) == a + b by {
      assert [a, b][1..] == [b];
      assert Concat([b]) == b + Concat([]);
    }
  }

  /**
   * Three levels of nesting register as `a`, `ab`, `abc`, parent first:
   * the enclosing names run together, as in `Outer`, `OuterMiddle`,
   * `OuterMiddleInner`.
   */
  lemma ThreeLevelNames(pkg: string, a: string, b: string, c: string)
    requires '.' !in a && '.' !in b && '.' !in c
    ensures var inner := MessageDescriptor(c, [], [], false);
            var middle := MessageDescriptor(b, [], [inner], false);
            var outer := MessageDescriptor(a, [], [middle], false);
            TreeComplete(outer) &&
            var models := Preorder(outer, "", pkg);
            && |models| == 3
            && models[0].name == a
            && models[1].name == a + b
            && models[2].name == a + b + c
  {
    var inner := MessageDescriptor(c, [], [], false);
    var middle := MessageDescriptor(b, [], [inner], false);
    var outer := MessageDescriptor(a, [], [middle], false);
    assert TreeComplete(inner);
    assert TreeComplete(middle);
    assert TreeComplete(outer);
    var p1 := "" + "." + a;
    var p2 := p1 + "." + b;
    PreorderOfChain(outer, "", pkg);
    PreorderOfChain(middle, p1, pkg);
    var x := BuildModel(outer, "", pkg).value;
    var y := BuildModel(middle, p1, pkg).value;
    var z := BuildModel(inner, p2, pkg).value;
    assert Preorder(inner, p2, pkg) == [z];
    TwoLevelPrefixes(a, b);
    assert x.name == a by { assert RemoveAll("", '.') == ""; }
    assert Preorder(outer, "", pkg) == [x] + ([y] + [z]);
  }
}

=== FILE: wrappers.dfy ===
/** Failure-compatible wrappers used for the generator's error paths. */
module Wrappers {

  /** An optional value, standing in for the Go code's nil pointers. */
  datatype Option<+T> = None | Some(value: T)

  /** Either a value or an error; usable with `:-`. */
  datatype Result<+T, +E> = Success(value: T) | Failure(error: E) {

    predicate IsFailure() {
      Failure?
    }

    function PropagateFailure<U>(): Result<U, E>
      requires Failure?
    {
      Failure(error)
    }

    function Extract(): T
      requires Success?
    {
      value
    }
  }
}
